=== FILE: README.md ===
# TDM calculator: wizard navigation, project summaries and the FAQ editor

This project models three pieces of logic inside the TDM calculator's React
components and proves properties about them.

- **The calculation wizard** (`TdmCalculationWizard.js`), modelled in module `Wizard`. It covers:
  - the redirect guard, which picks a route from the project id, the
    signed-in account and the login id;
  - the Next and Previous targets, which skip the packages page (page 4)
    when no package applies;
  - when the Next button is disabled;
  - the page-1 validation gate of forward navigation;
  - the step number shown in the progress display;
  - the list of result rules.
- **The two project summary screens**, modelled in modules `SummaryPage` (the
  single-file page) and `SummaryPanels` (the page built from panels). They
  share the rule model of module `Rules`:
  - lookup by code;
  - the "effective rule" test (a value that is truthy and not the string "0");
  - the listed measures and specifications;
  - the land-use names;
  - the loading flag;
  - the earned-versus-target verdict and the display conditions.

  The two screens disagree about inputs on calculation panel 5, and the model
  proves exactly where.
- **The FAQ editor page** (`FaqView.js`): a two-level ordered list of
  categories, each holding ordered FAQs.
  - Module `FaqModel` gives the values and, as functions, the list each
    handler computes. It proves their properties: a drag keeps the
    multiset of all FAQs, ids are grouped and bounded, and opening or
    closing never reaches the save payload.
  - Module `FaqEditor` holds the class `FaqView`. Its five fields are the
    page's state, and its methods are the handlers. The grouping loops of
    the fetch, the drag splice and the stripping loop of the save are
    written imperatively and proved against those functions.

JavaScript values are the datatype `Js.JsValue`, which covers null, undefined (also what a missing field reads as),
booleans, numbers (exact reals) and strings. `Math.round` is `(x + 0.5).Floor` on exact
reals.

## Model

| member | source | states |
|---|---|---|
| Js.FalsyValues | client/src/components/ProjectWizard/WizardPages/ProjectSummary.js:253-254 | a value is falsy exactly when it is null, undefined, false, 0 or the empty string |
| Js.ToNumber | client/src/components/ProjectWizard/WizardPages/ProjectSummary.js:399-400 | the number coercion `Math.round` applies: a number is kept, null becomes 0, undefined becomes NaN, true and false become 1 and 0; a string becomes a number iff all its characters are decimal digits, and then the non-negative value of those digits (so the empty string is 0) |
| Js.DigitsValueCons | client/src/components/ProjectWizard/TdmCalculationWizard.js:58-59 | a digit string's value read from the front: the leading digit weighs ten to the power of the number of digits after it |
| Js.JsRound | client/src/components/ProjectWizard/WizardPages/ProjectSummary.js:399-400 | `Math.round` gives the integer within half of x, and a half rounds upwards |
| Js.JsRoundMonotone | client/src/components/ProjectWizard/WizardPages/ProjectSummary.js:399-400 | rounding never reverses the order of two numbers |
| Js.JsRoundInt | client/src/components/ProjectWizard/WizardPages/ProjectSummary.js:399-400 | an integer rounds to itself |
| Rules.FilteredHasErrors | client/src/components/ProjectWizard/TdmCalculationWizard.js:96-102 | `find` of a rule with errors on a filtered list succeeds iff some rule passing the filter has errors |
| Rules.HasErrors | client/src/components/ProjectWizard/TdmCalculationWizard.js:98 | any validationErrors array, even an empty one, counts as errors; a missing one does not |
| Rules.GetRule | client/src/components/ProjectWizard/WizardPages/ProjectSummary.js:225-231 | null exactly when no rule has the code; otherwise the first rule in list order with that code |
| Rules.GetRuleFirst | client/src/components/ProjectWizard/WizardPages/ProjectSummary.js:225-231 | the lookup returns the rule at the first index with the code, whichever first index is named |
| Rules.GetRuleEmpty | client/src/components/ProjectWizard/WizardPages/ProjectSummary.js:233-242 | every lookup on an empty rule list is null |
| Rules.Counts | client/src/components/ProjectWizard/WizardPages/ProjectSummary.js:253-254 | `!!(x && x !== "0")` holds iff x is not blank (null, undefined, false, 0, "" or "0") |
| Rules.IsEffective | client/src/components/ProjectWizard/WizardPages/ProjectSummary.js:244-255 | a rule is effective iff its value and its calcValue are not both blank (null, undefined, false, 0, "" or "0") |
| Rules.PointsMeetTarget | client/src/components/ProjectWizard/WizardPages/ProjectSummary.js:399-400 | the target is met only when both values coerce to numbers; when they do (numbers, null, booleans, digit strings), it is met iff the rounded coerced earned points reach the rounded coerced target |
| Rules.MissingEarnedValueNeverMeets | client/src/components/ProjectWizard/WizardPages/ProjectSummary.js:399-400 | an earned-points rule without a value (NaN once rounded) never meets any target |
| Rules.NullTargetCountsAsZero | client/src/components/ProjectWizard/WizardPages/ProjectSummary.js:399-400 | a null target coerces to 0, so 20 earned points meet it |
| Rules.PointsAtLeastTargetMeet | client/src/components/ProjectWizard/WizardPages/ProjectSummary.js:399-400 | earned points at least as large as the target always meet it |
| Rules.RoundingBeforeComparison | client/src/components/ProjectWizard/WizardPages/ProjectSummary.js:399-400 | because both sides are rounded first, 39.5 earned points meet a target of 40 |
| Wizard.CurrentPage | client/src/components/ProjectWizard/TdmCalculationWizard.js:58 | a missing or empty page parameter is page 1; any other text is its coerced number, and NaN exactly when it holds a non-digit |
| Wizard.ParamNumber | client/src/components/ProjectWizard/TdmCalculationWizard.js:59 | `Number` of a route parameter: missing is NaN; a text is a number iff the value coercion makes it one, and then the same non-negative number |
| Wizard.Redirect | client/src/components/ProjectWizard/TdmCalculationWizard.js:61-81 | applies the redirect priority, with each outcome given as an iff: no project id (missing, 0 or NaN) gives page 1; else no signed-in account gives the login page; else a known login id that is neither an administrator nor the owner gives the project's summary page 6, under the coerced id; else there is no redirect |
| Wizard.RedirectProtectsForeignProjects | client/src/components/ProjectWizard/TdmCalculationWizard.js:67-80 | once the login id is known, staying on the page implies the viewer is an administrator or the owner |
| Wizard.NextPage | client/src/components/ProjectWizard/TdmCalculationWizard.js:139-145 | Next from page 3 goes to 4 if a package applies, else to 5; from any other page it goes to page + 1 |
| Wizard.PrevPage | client/src/components/ProjectWizard/TdmCalculationWizard.js:149-155 | Previous from page 5 goes to 4 if a package applies, else to 3; from any other page it goes to page - 1 |
| Wizard.PackagesPageSkipped | client/src/components/ProjectWizard/TdmCalculationWizard.js:139-155 | with no applicable package, neither button lands on page 4 |
| Wizard.NextPrevInverse | client/src/components/ProjectWizard/TdmCalculationWizard.js:139-155 | Previous undoes Next and Next undoes Previous on every page that can be shown |
| Wizard.NextDisabled | client/src/components/ProjectWizard/TdmCalculationWizard.js:95-111 | Next is disabled iff, for the current page: page 1 and a project-description rule has errors; or page 2 and a specification rule has errors; or page 5 and a strategy rule has errors; or page 6. Any validationErrors array counts as errors; a NaN page disables nothing |
| Wizard.PageNumber | client/src/components/ProjectWizard/TdmCalculationWizard.js:93-113 | for the current page: a level-0 project shows step 5 on page 3; otherwise pages up to 3 keep their number and every later page shows one less; a NaN page shows NaN |
| Wizard.PageNumberMonotone | client/src/components/ProjectWizard/TdmCalculationWizard.js:113 | apart from the level-0 case, a later page never shows an earlier step |
| Wizard.PageNumberRange | client/src/components/ProjectWizard/TdmCalculationWizard.js:113 | pages 1 to 6 show steps 1 to 5 |
| Wizard.SummaryPageShowsLastStep | client/src/components/ProjectWizard/TdmCalculationWizard.js:113 | the summary page "6" shows step 5 |
| Wizard.Validate | client/src/components/ProjectWizard/TdmCalculationWizard.js:115-132 | validation fails iff the raw page text is "1" and a project-description rule has errors; every other page text passes |
| Wizard.IdSegment | client/src/components/ProjectWizard/TdmCalculationWizard.js:136 | the project id is appended iff its text is present and non-empty, and then as that raw text |
| Wizard.OnPageChange | client/src/components/ProjectWizard/TdmCalculationWizard.js:134-158 | a forward move is refused, with the one required-fields message, iff the page text is "1" and validation fails. Otherwise the pushed route goes to NextPage for a forward move and to PrevPage for any other move; a NaN page always pushes the NaN page. The raw project id is kept only when non-empty |
| Wizard.ForwardSkipsPackages | client/src/components/ProjectWizard/TdmCalculationWizard.js:137-146 | forward from page 3 with no applicable package lands on page 5 |
| Wizard.BackwardSkipsPackages | client/src/components/ProjectWizard/TdmCalculationWizard.js:148-156 | a non-forward move from page 5 with no applicable package, including a request for page 5 itself, lands on page 3 |
| Wizard.MissingPageNavigatesToNaN | client/src/components/ProjectWizard/TdmCalculationWizard.js:134-158 | without a page parameter the wizard shows page 1, yet every page change pushes the NaN page |
| Wizard.RequestedPageOnlyDecidesDirection | client/src/components/ProjectWizard/TdmCalculationWizard.js:137-156 | two requested pages on the same side of the current page give the same outcome |
| Wizard.Page1RefusalMatchesDisabledNext | client/src/components/ProjectWizard/TdmCalculationWizard.js:95-132 | on page "1", a forward move is refused iff the Next button is disabled |
| Wizard.UnpaddedPageOnlyIsValidated | client/src/components/ProjectWizard/TdmCalculationWizard.js:95-146 | with a project-description error, page "01" disables Next like page "1", but a page change from "01" goes forward while from "1" it is refused |
| Wizard.ResultRules | client/src/components/ProjectWizard/TdmCalculationWizard.js:89-91 | the result rules are exactly the displayed rules whose code is a result code, each kept as often as it occurs; the category is not consulted |
| Wizard.ResultRulesKeepOrder | client/src/components/ProjectWizard/TdmCalculationWizard.js:89-91 | the result list keeps list order: it distributes over concatenation |
| SummaryPage.LandUseNames | client/src/components/ProjectWizard/WizardPages/ProjectSummary.js:220-222 | a name is listed iff some used rule on panel 5 with a truthy value has it; the k-th name is the name of the k-th such rule |
| SummaryPage.LandUses | client/src/components/ProjectWizard/WizardPages/ProjectSummary.js:220-223 | the joined text is empty without a land use, and a single land use's name when there is exactly one |
| SummaryPage.LandUsesConcat | client/src/components/ProjectWizard/WizardPages/ProjectSummary.js:220-223 | the joined land-use text keeps list order, with one ", " between the parts of two lists |
| SummaryPage.LandUseKeepsZeroString | client/src/components/ProjectWizard/WizardPages/ProjectSummary.js:220-223 | a panel-5 rule whose value is the string "0" is listed as a land use, although it is not effective |
| SummaryPage.MeasureRules | client/src/components/ProjectWizard/WizardPages/ProjectSummary.js:245-255 | a rule is listed iff it is a used, displayed, effective measure off panel 10; each is kept as often as it occurs |
| SummaryPage.MeasureRulesKeepOrder | client/src/components/ProjectWizard/WizardPages/ProjectSummary.js:245-255 | the listed measures keep list order: the list distributes over concatenation |
| SummaryPage.SpecificationRules | client/src/components/ProjectWizard/WizardPages/ProjectSummary.js:257-268 | a rule is listed iff it is a used, displayed, effective input on neither panel 5 nor panel 31; each is kept as often as it occurs |
| SummaryPage.SpecificationRulesKeepOrder | client/src/components/ProjectWizard/WizardPages/ProjectSummary.js:257-268 | the listed specifications keep list order: the list distributes over concatenation |
| SummaryPage.Loading | client/src/components/ProjectWizard/WizardPages/ProjectSummary.js:270-278 | loading holds iff the rule list is empty |
| SummaryPage.SuccessMessageShown | client/src/components/ProjectWizard/WizardPages/ProjectSummary.js:399-405 | the message shows only when both values coerce to numbers; an earned rule without a value never shows it |
| SummaryPage.SuccessMessageIffRoundedReach | client/src/components/ProjectWizard/WizardPages/ProjectSummary.js:399-405 | with both rules present and both values coercing to numbers, the success message shows iff the rounded coerced earned points reach the rounded coerced target |
| SummaryPanels.MeasureRules | client/src/components/ProjectWizard/WizardPages/ProjectSummary/ProjectSummary.js:114-124 | a rule is listed iff it is a used, displayed, effective measure off panel 10; each is kept as often as it occurs |
| SummaryPanels.MeasureRulesAgree | client/src/components/ProjectWizard/WizardPages/ProjectSummary/ProjectSummary.js:114-124 | both summaries list the same measures in the same order |
| SummaryPanels.SpecificationRules | client/src/components/ProjectWizard/WizardPages/ProjectSummary/ProjectSummary.js:126-136 | a rule is listed iff it is a used, displayed, effective input off panel 31 |
| SummaryPanels.SpecificationRulesKeepOrder | client/src/components/ProjectWizard/WizardPages/ProjectSummary/ProjectSummary.js:126-136 | the listed specifications keep list order: the list distributes over concatenation |
| SummaryPanels.SpecificationRulesDifferOnPanel5 | client/src/components/ProjectWizard/WizardPages/ProjectSummary/ProjectSummary.js:126-136 | the single-file page's specifications are this screen's specifications with the panel-5 rules removed, in the same order |
| SummaryPanels.Panel5InputListedOnlyHere | client/src/components/ProjectWizard/WizardPages/ProjectSummary/ProjectSummary.js:126-136 | a used, displayed, effective panel-5 input is listed here and not on the single-file page |
| SummaryPanels.Loading | client/src/components/ProjectWizard/WizardPages/ProjectSummary/ProjectSummary.js:138-146 | loading holds iff the rule list is empty |
| SummaryPanels.RuleListsShown | client/src/components/ProjectWizard/WizardPages/ProjectSummary/ProjectSummary.js:138-152 | the measure and specification lists are rendered iff the page is not loading |
| SummaryPanels.TargetPointsReached | client/src/components/ProjectWizard/WizardPages/ProjectSummary/ProjectSummary.js:148-150 | the target is reached only when a PTS_EARNED rule and a TARGET_POINTS_PARK rule exist; with an earned rule and both values coercing to numbers, it is reached iff the rounded coerced earned points reach the rounded coerced target |
| SummaryPanels.TargetVerdictsAgree | client/src/components/ProjectWizard/WizardPages/ProjectSummary/ProjectSummary.js:148-150 | with both rules present, this screen's verdict equals the single-file page's success message |
| SummaryPanels.EarnedPointsBorder | client/src/components/ProjectWizard/WizardPages/ProjectSummary/ProjectSummary.js:154-156 | the success border is chosen iff the target is reached; otherwise the failure border is chosen |
| SummaryPanels.StrategyDetailsShown | client/src/components/ProjectWizard/WizardPages/ProjectSummary/ProjectSummary.js:209-210 | the strategy details are shown iff the first STRATEGY_APPLICANT rule has a truthy calcValue and a non-empty comment |
| SummaryPanels.DescriptionShown | client/src/components/ProjectWizard/WizardPages/ProjectSummary/ProjectSummary.js:267 | the description block is shown iff the first PROJECT_DESCRIPTION rule has a non-empty string value |
| FaqModel.FindCategory | client/src/components/Faq/FaqView.js:38-43 | gives the index of the first category with that id, or -1 when there is none |
| FaqModel.MoveFaq | client/src/components/Faq/FaqView.js:37-65 | a FAQ move keeps the number of categories |
| FaqModel.DragEnd | client/src/components/Faq/FaqView.js:23-73 | a drag keeps the number of categories |
| FaqModel.DragNoOp | client/src/components/Faq/FaqView.js:26-32 | a drop outside every target, or onto its own place, leaves the list unchanged |
| FaqModel.FaqMoveAcross | client/src/components/Faq/FaqView.js:45-65 | a move across categories: the FAQ leaves the source list at the source index and sits at the destination index; the destination's other FAQs keep their order; every other category and every field except `faqs` are unchanged |
| FaqModel.FaqMoveWithin | client/src/components/Faq/FaqView.js:45-56 | a move within a category: the FAQ ends at the destination index, and the category keeps the same FAQs with the others in their order; other categories are unchanged |
| FaqModel.TransferKeepsFaqs | client/src/components/Faq/FaqView.js:45-64 | a move across categories keeps the multiset of all FAQs |
| FaqModel.ReorderKeepsFaqs | client/src/components/Faq/FaqView.js:45-56 | a move within a category keeps the multiset of all FAQs |
| FaqModel.FaqMoveKeepsFaqs | client/src/components/Faq/FaqView.js:37-65 | every FAQ move keeps the multiset of all FAQs |
| FaqModel.CategoryMove | client/src/components/Faq/FaqView.js:66-69 | a category drag permutes the list: the dragged category sits at the destination, the others keep their order, and the multiset of all FAQs is kept |
| FaqModel.DragKeepsFaqs | client/src/components/Faq/FaqView.js:23-73 | no drag adds, loses or duplicates a FAQ |
| FaqModel.InCategoryMembers | client/src/components/Faq/FaqView.js:95-100 | a FAQ is collected for a category from the first n fetched FAQs iff it is among them with that category id |
| FaqModel.InCategoryIsFilter | client/src/components/Faq/FaqView.js:95-100 | the FAQs collected for a category from the first n fetched FAQs are those n filtered by category id, in fetched order and with multiplicity |
| FaqModel.Closed | client/src/components/Faq/FaqView.js:77-79 | a fetched FAQ starts closed; nothing else changes, so its saved form is unchanged |
| FaqModel.Grouped | client/src/components/Faq/FaqView.js:87-101 | the grouped list has one entry per fetched category, in fetched order, and each entry is that category grouped |
| FaqModel.GroupedCategory | client/src/components/Faq/FaqView.js:87-101 | each grouped category keeps its id, name and display order; its existing FAQs come first, and then exactly the fetched FAQs with its id |
| FaqModel.HighestCategoryId | client/src/components/Faq/FaqView.js:85-89 | the highest category id over the first n fetched categories is never negative |
| FaqModel.HighestCategoryIdBounds | client/src/components/Faq/FaqView.js:85-89 | the highest category id over the first n categories is at least each of their ids, and is either 0 or one of their ids |
| FaqModel.MaxFaqId | client/src/components/Faq/FaqView.js:95-100 | the inner loop's running maximum never drops below its start |
| FaqModel.MaxFaqIdBounds | client/src/components/Faq/FaqView.js:95-100 | the running maximum over the first n fetched FAQs is at least the start value and every matching FAQ's id among them, and is either the start value or such a FAQ's id |
| FaqModel.HighestFaqId | client/src/components/Faq/FaqView.js:84-101 | the highest FAQ id after the first n categories of a fetch is never negative |
| FaqModel.HighestFaqIdBounds | client/src/components/Faq/FaqView.js:84-101 | the highest FAQ id after the first n categories is at least the id of every FAQ placed in one of them, and is either 0 or such a FAQ's id; a FAQ with no such category does not raise it |
| FaqModel.AddCategory | client/src/components/Faq/FaqView.js:132-142 | exactly one category is appended, with id highestCategoryId + 1, display order ten past the last one's, an empty name and no FAQs; the rest of the list is kept |
| FaqModel.TwoAddedCategoriesShareId | client/src/components/Faq/FaqView.js:132-142 | the counter is not advanced, so two categories added in a row get the same id |
| FaqModel.AddCategoryExample | client/src/components/Faq/FaqView.js:133-137 | with last display order 30 and highest id 5, the new category gets id 6 and display order 40 |
| FaqModel.DeleteAddedCategory | client/src/components/Faq/FaqView.js:132-148 | deleting the category just added restores the list, provided no category already had its id |
| FaqModel.NewFaq | client/src/components/Faq/FaqView.js:153-160 | the new FAQ carries the category id, the given text and a closed flag; it sorts after the category's last FAQ; its id is fresh when the counter bounds the category's ids |
| FaqModel.DeleteCategory | client/src/components/Faq/FaqView.js:144-148 | a category remains iff it was there and has a different id; the remaining categories keep their multiplicity |
| FaqModel.DeleteCategoryKeepsOrder | client/src/components/Faq/FaqView.js:144-148 | deletion keeps the order of the rest: it distributes over concatenation |
| FaqModel.AddFaq | client/src/components/Faq/FaqView.js:150-173 | the categories with the given id get the new FAQ appended. It has id highestFaqId + 1, that category id, a closed flag and display order ten past the last FAQ's. Every other category and every field except `faqs` are unchanged |
| FaqModel.TwoAddedFaqsShareId | client/src/components/Faq/FaqView.js:150-173 | the counter is not advanced, so two FAQs added in a row get the same id and display order |
| FaqModel.DeleteAddedFaq | client/src/components/Faq/FaqView.js:150-214 | deleting the FAQ just added restores the list, provided no FAQ of that category already had its id |
| FaqModel.EditFaq | client/src/components/Faq/FaqView.js:175-198 | only the FAQs with that id inside the categories with that id get the new question and answer; every position and every other field are unchanged |
| FaqModel.EditFaqIdempotent | client/src/components/Faq/FaqView.js:175-198 | editing twice with the same text is the same as editing once |
| FaqModel.DeleteFaq | client/src/components/Faq/FaqView.js:200-214 | inside the categories with that id, a FAQ remains iff it was there with a different id; every other category and every field except `faqs` are unchanged |
| FaqModel.DeleteFaqKeepsRest | client/src/components/Faq/FaqView.js:200-214 | inside the category, every other FAQ keeps its multiplicity, and deletion distributes over any split of its FAQs, so their order is kept |
| FaqModel.SetExpand | client/src/components/Faq/FaqView.js:216-240 | every FAQ with that id, in every category, gets the flag; nothing else changes |
| FaqModel.ExpandAll | client/src/components/Faq/FaqView.js:244-251 | every FAQ gets the flag; nothing else changes |
| FaqModel.ExpandAllTwice | client/src/components/Faq/FaqView.js:244-251 | only the last of two toggles of the FAQ list matters |
| FaqModel.StripCategory | client/src/components/Faq/FaqView.js:112-124 | one category's payload: every FAQ loses its `expand` field, and nothing else changes |
| FaqModel.Stripped | client/src/components/Faq/FaqView.js:111-125 | the save payload: every FAQ of every category loses its `expand` field, and nothing else changes |
| FaqModel.StrippedIdempotent | client/src/components/Faq/FaqView.js:111-125 | stripping twice is the same as stripping once |
| FaqModel.ExpansionNotSaved | client/src/components/Faq/FaqView.js:111-125 | opening, closing or toggling FAQs never changes the save payload |
| FaqEditor.CollectFaqs | client/src/components/Faq/FaqView.js:91-100 | the inner loop gives the category's existing FAQs followed by the fetched FAQs with its id, and the running highest FAQ id over them |
| FaqEditor.FaqView.constructor | client/src/components/Faq/FaqView.js:13-17 | the initial state: no categories, both counters 0, collapsed, not editing |
| FaqEditor.GroupFaqs | client/src/components/Faq/FaqView.js:84-101 | the outer loop builds exactly the grouped categories, the highest category id and the highest placed FAQ id |
| FaqEditor.FaqView.FetchFaqData | client/src/components/Faq/FaqView.js:75-106 | the list becomes the grouped categories of the closed fetched FAQs, and the counters become the highest category id and the highest placed FAQ id; the flags are unchanged (the two loops are `FaqEditor.GroupFaqs`) |
| FaqEditor.FaqView.HandleDragEnd | client/src/components/Faq/FaqView.js:23-73 | the list becomes the dragged list; every other field is unchanged |
| FaqEditor.FaqView.SubmitFaqData | client/src/components/Faq/FaqView.js:108-130 | the payload is the stripped list, and because the category objects are shared, the state's list is stripped too; every other field is unchanged |
| FaqEditor.FaqView.HandleAddCategory | client/src/components/Faq/FaqView.js:132-142 | the list gains the new category; the counters and flags are unchanged |
| FaqEditor.FaqView.HandleDeleteCategory | client/src/components/Faq/FaqView.js:144-148 | the categories with that id are removed; every other field is unchanged |
| FaqEditor.FaqView.HandleAddFaq | client/src/components/Faq/FaqView.js:150-173 | the list gains the new FAQ; the counters and flags are unchanged |
| FaqEditor.FaqView.HandleEditFaq | client/src/components/Faq/FaqView.js:175-198 | the list becomes the edited list; every other field is unchanged |
| FaqEditor.FaqView.HandleDeleteFaq | client/src/components/Faq/FaqView.js:200-214 | the list loses the FAQ; every other field is unchanged |
| FaqEditor.FaqView.ExpandFaq | client/src/components/Faq/FaqView.js:216-227 | every FAQ with the given FAQ's id is opened; every other field is unchanged |
| FaqEditor.FaqView.CollapseFaq | client/src/components/Faq/FaqView.js:229-240 | every FAQ with the given FAQ's id is closed; every other field is unchanged |
| FaqEditor.FaqView.ToggleExpandCollapse | client/src/components/Faq/FaqView.js:242-252 | `expanded` is negated and every FAQ's flag equals the new `expanded` |
| FaqEditor.FaqView.HandleAdminChange | client/src/components/Faq/FaqView.js:254-261 | edit mode flips. Leaving edit mode saves the stripped list (returned as the payload); entering it saves nothing and leaves the list unchanged |

## Left out

- Network I/O is not modelled.
  - The two fetched arrays of the FAQ page are parameters of `FaqEditor.FaqView.FetchFaqData`.
  - The POST of the save is replaced by the payload that `SubmitFaqData` and `HandleAdminChange` return.
  - The order of asynchronous completions is not modelled.
- React scheduling is not modelled.
  - Each handler applies its state update at once, in call order.
  - `toggleExpandCollapse` reads `expanded` from the render that created it. Within one call this is the value before the flip, as the model uses.
  - `submitFaqData` captures the list of its render; the model saves the current state.
- Rendering is left out: JSX, styles, icons, the loader, placeholder texts and the display formatting of numbers (`Math.round(x * 100) / 100`, the comma helpers).
- Three files hold no logic to model: `About.js`, `WizardNavButton.js` and `ProjectInfoContainer.jsx`.
- `history.push` and the toast are outputs. The model returns the pushed route or the refusal message instead of performing it.
- Route parameters are their raw URL text (`Wizard.Param`), and `Number` on them follows `Js.ToNumber`: only a text of decimal digits (or the empty text) is a number, so "3.0" or " 3" are NaN in the model. A page of `None` in a pushed route is the NaN page.
- A project-id segment is kept as the number the guard formats (`Wizard.IdNumber`) or the raw text page navigation copies (`Wizard.IdText`); that both name the same URL when they print alike is not modelled.
- The signed-in account's id is an integer, and a missing or null id is represented as 0 (`Wizard.Account`). Both are falsy in `account.id`, so the guard treats them alike; an id of any other type is not modelled.
- The page filters passed to the wizard come from a module that is not part of this model, so they are a parameter.
- The `getRule` helper of the panel-based summary comes from a helpers module that is not part of this model. It is modelled by the same first-match lookup as the single-file page's own `getRule`.
- The rule record keeps only the fields these components read. `id`, `dataType`, `units` and `choices` are left out.
- Numbers are exact reals, not IEEE doubles.
- Js.ToNumber: only decimal digit strings coerce to numbers. A string with a sign, a decimal point, an exponent or surrounding spaces coerces to NaN in the model. In JavaScript it may coerce to a number.
- Reads through a missing object throw in the source. Those inputs are excluded by preconditions, not modelled as exceptions:
  - the target rule once an earned rule exists (`SummaryPanels.TargetPointsReached`, `SummaryPanels.EarnedPointsBorder`);
  - the strategy rule, and its comment once its calcValue is truthy; a null or missing comment is `None` (`SummaryPanels.StrategyDetailsShown`);
  - a null or undefined description value (`SummaryPanels.DescriptionShown`);
  - both rules of the single-file success message (`SummaryPage.SuccessMessageShown`);
  - the last category of an empty list (`FaqEditor.FaqView.HandleAddCategory`);
  - the last FAQ of an empty category (`FaqEditor.FaqView.HandleAddFaq`).
- Drag positions the drag library cannot report are excluded by `FaqModel.DragInBounds`. Examples are a droppable that names no category (`findIndex` giving -1) and an index outside the list.
- A category's droppable name `"c" + id` is identified with the id. Distinct ids give distinct names.
- A missing `displayOrder` is represented as 0, which `displayOrder || 0` treats the same way. A non-numeric display order is not modelled.
- `fetchFaqData` pushes into the fetched category objects. The model builds new values, and that aliasing with the response objects is not observable afterwards.
- `submitFaqData` skips a category without a `faqs` array. In the model every category holds a sequence: fetched categories get one during grouping, and added categories start with an empty one.
- Three behaviours of the code worth noting, which the model follows:
  - Any `validationErrors` array, even an empty one, counts as errors, because the code tests `!!validationErrors` (`Rules.HasErrors`).
  - `handleValidate` has a validation for page 1 only (`Wizard.Validate`), so forward navigation is refused on page 1 alone. On pages 2 and 5 only the disabled Next button stops it.
  - Both summaries compare earned and target points by their `value` fields, not their `calcValue` fields (`Rules.PointsMeetTarget`).

=== FILE: FaqModel.dfy ===
/**
 * The FAQ page's two-level ordered list: categories, each holding an
 * ordered list of FAQs. This module gives the values and, as functions, the
 * new list each handler of the page computes from the previous one; the
 * `FaqView` class in module `FaqEditor` applies them to its state.
 */
module FaqModel {
  import opened Js
  import opened Seqs

  /**
   * One FAQ. `expand` is the page-local open/closed flag; `None` means the
   * field is absent, as it is after saving strips it. A missing
   * `displayOrder` is represented as 0, which `displayOrder || 0` treats the
   * same way.
   */
  datatype Faq = Faq(
    id: int,
    question: string,
    answer: string,
    faqCategoryId: int,
    displayOrder: int,
    expand: Option<bool>)

  datatype Category = Category(id: int, name: string, displayOrder: int, faqs: seq<Faq>)

  /** A category as fetched: its `faqs` array may be missing. */
  datatype FetchedCategory = FetchedCategory(id: int, name: string, displayOrder: int, faqs: Option<seq<Faq>>)

  // ---------------------------------------------------------------------
  // All FAQs of a list, in order
  // ---------------------------------------------------------------------

  /** The FAQs of all categories, category by category. */
  function AllFaqs(list: seq<Category>): seq<Faq>
  {
    if list == [] then [] else list[0].faqs + AllFaqs(list[1..])
  }

  lemma {:induction false} AllFaqsConcat(a: seq<Category>, b: seq<Category>)
    ensures AllFaqs(a + b) == AllFaqs(a) + AllFaqs(b)
  {
    if a == [] {
      assert a + b == b;
    } else {
      assert (a + b)[1..] == a[1..] + b;
      AllFaqsConcat(a[1..], b);
    }
  }

  /** The FAQs of a category placed between two lists sit between their FAQs. */
  lemma AllFaqsBetween(a: seq<Category>, c: Category, b: seq<Category>)
    ensures AllFaqs(a + [c] + b) == AllFaqs(a) + c.faqs + AllFaqs(b)
  {
    AllFaqsConcat(a + [c], b);
    AllFaqsConcat(a, [c]);
    assert AllFaqs([c]) == c.faqs;
  }

  /** Replacing one category swaps its FAQs for the new ones in the multiset of all FAQs. */
  lemma AllFaqsUpdate(list: seq<Category>, k: nat, c: Category)
    requires k < |list|
    ensures multiset(AllFaqs(list[k := c])) + multiset(list[k].faqs) ==
            multiset(AllFaqs(list)) + multiset(c.faqs)
  {
    var a, b := list[..k], list[k + 1..];
    assert list == a + [list[k]] + b;
    assert list[k := c] == a + [c] + b;
    AllFaqsBetween(a, list[k], b);
    AllFaqsBetween(a, c, b);
  }

  /** Inserting a category adds its FAQs to the multiset of all FAQs. */
  lemma AllFaqsInsert(list: seq<Category>, j: nat, c: Category)
    requires j <= |list|
    ensures multiset(AllFaqs(InsertAt(list, j, c))) == multiset(AllFaqs(list)) + multiset(c.faqs)
  {
    var a, b := list[..j], list[j..];
    TakeDrop(list, j);
    assert InsertAt(list, j, c) == a + [c] + b;
    AllFaqsConcat(a, b);
    AllFaqsBetween(a, c, b);
    var x, y := AllFaqs(a), AllFaqs(b);
    assert multiset(x + c.faqs + y) == multiset(x + y) + multiset(c.faqs);
  }

  lemma MultisetCancel(a: multiset<Faq>, b: multiset<Faq>, c: multiset<Faq>)
    requires a + c == b + c
    ensures a == b
  {
    forall z ensures a[z] == b[z] {
      assert (a + c)[z] == (b + c)[z];
    }
  }

  /** Removing a category takes its FAQs out of the multiset of all FAQs. */
  lemma AllFaqsRemove(list: seq<Category>, i: nat)
    requires i < |list|
    ensures multiset(AllFaqs(RemoveAt(list, i))) + multiset(list[i].faqs) == multiset(AllFaqs(list))
  {
    InsertRemove(list, i);
    AllFaqsInsert(RemoveAt(list, i), i, list[i]);
  }

  // ---------------------------------------------------------------------
  // Drag and drop
  // ---------------------------------------------------------------------

  datatype DragType = FaqDrag | CategoryDrag | OtherDrag

  /**
   * A droppable area. A category's FAQ list is the droppable `"c" + id`;
   * since distinct integer ids give distinct strings, it is identified by
   * the id here. Any other droppable (the category list) has its own name.
   */
  datatype DroppableId = CategoryFaqs(categoryId: int) | OtherDroppable(name: string)

  datatype Location = Location(droppableId: DroppableId, index: int)

  /** What the drag library reports at the end of a drag; no destination means a drop outside every target. */
  datatype DragResult = DragResult(kind: DragType, source: Location, destination: Option<Location>)

  /** `findIndex(c => c.id === id)`: the first category with that id, or -1. */
  function FindCategory(list: seq<Category>, id: int): (i: int)
    ensures -1 <= i < |list|
    ensures i >= 0 ==> list[i].id == id && forall j :: 0 <= j < i ==> list[j].id != id
    ensures i == -1 ==> forall j :: 0 <= j < |list| ==> list[j].id != id
  {
    if list == [] then -1
    else if list[0].id == id then 0
    else
      var k := FindCategory(list[1..], id);
      if k == -1 then -1 else k + 1
  }

  /** A drop outside every target, or back onto its own place, changes nothing. */
  predicate IsNoOpDrag(d: DragResult)
  {
    d.destination.None? || d.destination.value == d.source
  }

  /**
   * The positions of a FAQ move exist: both droppables are FAQ lists of
   * categories in the list, the source index holds a FAQ, and the
   * destination index is a place to insert into the destination list
   * (after the removal, when it is the source list).
   */
  predicate FaqMoveInBounds(list: seq<Category>, src: Location, dst: Location)
  {
    src.droppableId.CategoryFaqs? && dst.droppableId.CategoryFaqs? &&
    var si := FindCategory(list, src.droppableId.categoryId);
    var di := FindCategory(list, dst.droppableId.categoryId);
    0 <= si && 0 <= di && 0 <= src.index < |list[si].faqs| &&
    0 <= dst.index <= |list[di].faqs| - (if dst.droppableId == src.droppableId then 1 else 0)
  }

  /** The positions the drag library reports exist in the list it was given. */
  predicate DragInBounds(list: seq<Category>, d: DragResult)
  {
    IsNoOpDrag(d) ||
    match d.kind
    case FaqDrag => FaqMoveInBounds(list, d.source, d.destination.value)
    case CategoryDrag => 0 <= d.source.index < |list| && 0 <= d.destination.value.index < |list|
    case OtherDrag => true
  }

  /**
   * Moving one FAQ: it is spliced out of its source category's list and
   * spliced into the destination category's list; for a move within one
   * category the destination index is into the list after the removal.
   */
  function MoveFaq(list: seq<Category>, src: Location, dst: Location): (r: seq<Category>)
    requires FaqMoveInBounds(list, src, dst)
    ensures |r| == |list|
  {
    var si := FindCategory(list, src.droppableId.categoryId);
    var di := FindCategory(list, dst.droppableId.categoryId);
    var dragged := list[si].faqs[src.index];
    var sourceFaqs := RemoveAt(list[si].faqs, src.index);
    if dst.droppableId == src.droppableId then
      list[si := list[si].(faqs := InsertAt(sourceFaqs, dst.index, dragged))]
    else
      var newState := list[si := list[si].(faqs := sourceFaqs)];
      newState[di := list[di].(faqs := InsertAt(list[di].faqs, dst.index, dragged))]
  }

  /** `handleDragEnd`: the list after a drag. */
  function DragEnd(list: seq<Category>, d: DragResult): (r: seq<Category>)
    requires DragInBounds(list, d)
    ensures |r| == |list|
  {
    if IsNoOpDrag(d) then list
    else
      match d.kind
      case FaqDrag => MoveFaq(list, d.source, d.destination.value)
      case CategoryDrag => InsertAt(RemoveAt(list, d.source.index), d.destination.value.index, list[d.source.index])
      case OtherDrag => list
  }

  /** A drop outside every target or onto its own place leaves the list unchanged. */
  lemma DragNoOp(list: seq<Category>, d: DragResult)
    requires IsNoOpDrag(d)
    ensures DragInBounds(list, d) && DragEnd(list, d) == list
  {
  }

  /**
   * A FAQ moved to another category: it leaves its source list at the
   * source index and sits at the destination index of the destination
   * list, whose other FAQs keep their order; every other category, and
   * every field other than `faqs`, is unchanged.
   */
  lemma FaqMoveAcross(list: seq<Category>, src: Location, dst: Location)
    requires FaqMoveInBounds(list, src, dst) && dst.droppableId != src.droppableId
    ensures var si := FindCategory(list, src.droppableId.categoryId);
      var di := FindCategory(list, dst.droppableId.categoryId);
      var r := MoveFaq(list, src, dst);
      si != di &&
      (forall k :: 0 <= k < |list| && k != si && k != di ==> r[k] == list[k]) &&
      r[si] == list[si].(faqs := RemoveAt(list[si].faqs, src.index)) &&
      r[di].(faqs := list[di].faqs) == list[di] &&
      r[di].faqs[dst.index] == list[si].faqs[src.index] &&
      RemoveAt(r[di].faqs, dst.index) == list[di].faqs
  {
    var di := FindCategory(list, dst.droppableId.categoryId);
    RemoveInsert(list[di].faqs, dst.index, list[FindCategory(list, src.droppableId.categoryId)].faqs[src.index]);
  }

  /**
   * A FAQ moved within its category: it ends at the destination index, the
   * category keeps the same FAQs, the other FAQs keep their order, and
   * every other category is unchanged.
   */
  lemma FaqMoveWithin(list: seq<Category>, src: Location, dst: Location)
    requires FaqMoveInBounds(list, src, dst) && dst.droppableId == src.droppableId
    ensures var si := FindCategory(list, src.droppableId.categoryId);
      var r := MoveFaq(list, src, dst);
      (forall k :: 0 <= k < |list| && k != si ==> r[k] == list[k]) &&
      r[si].(faqs := list[si].faqs) == list[si] &&
      r[si].faqs[dst.index] == list[si].faqs[src.index] &&
      multiset(r[si].faqs) == multiset(list[si].faqs) &&
      RemoveAt(r[si].faqs, dst.index) == RemoveAt(list[si].faqs, src.index)
  {
    var si := FindCategory(list, src.droppableId.categoryId);
    Move(list[si].faqs, src.index, dst.index);
  }

  /** Moving a FAQ from one category of the list to another keeps the multiset of all FAQs. */
  lemma TransferKeepsFaqs(list: seq<Category>, si: nat, di: nat, i: nat, j: nat)
    requires si < |list| && di < |list| && si != di
    requires i < |list[si].faqs| && j <= |list[di].faqs|
    ensures var dragged := list[si].faqs[i];
      var newState := list[si := list[si].(faqs := RemoveAt(list[si].faqs, i))];
      multiset(AllFaqs(newState[di := list[di].(faqs := InsertAt(list[di].faqs, j, dragged))])) ==
      multiset(AllFaqs(list))
  {
    var dragged := list[si].faqs[i];
    var sourceFaqs := RemoveAt(list[si].faqs, i);
    var newState := list[si := list[si].(faqs := sourceFaqs)];
    var target := list[di].(faqs := InsertAt(list[di].faqs, j, dragged));
    AllFaqsUpdate(list, si, list[si].(faqs := sourceFaqs));
    MultisetCancel(multiset(AllFaqs(newState)) + multiset{dragged}, multiset(AllFaqs(list)), multiset(sourceFaqs));
    assert newState[di] == list[di];
    AllFaqsUpdate(newState, di, target);
    MultisetCancel(multiset(AllFaqs(newState[di := target])), multiset(AllFaqs(newState)) + multiset{dragged}, multiset(list[di].faqs));
  }

  /** Moving a FAQ within one category of the list keeps the multiset of all FAQs. */
  lemma ReorderKeepsFaqs(list: seq<Category>, si: nat, i: nat, j: nat)
    requires si < |list| && i < |list[si].faqs| && j < |list[si].faqs|
    ensures var faqs := list[si].faqs;
      multiset(AllFaqs(list[si := list[si].(faqs := InsertAt(RemoveAt(faqs, i), j, faqs[i]))])) ==
      multiset(AllFaqs(list))
  {
    var faqs := list[si].faqs;
    var moved := list[si].(faqs := InsertAt(RemoveAt(faqs, i), j, faqs[i]));
    Move(faqs, i, j);
    AllFaqsUpdate(list, si, moved);
    MultisetCancel(multiset(AllFaqs(list[si := moved])), multiset(AllFaqs(list)), multiset(faqs));
  }

  /** Moving a FAQ keeps the multiset of all FAQs. */
  lemma FaqMoveKeepsFaqs(list: seq<Category>, src: Location, dst: Location)
    requires FaqMoveInBounds(list, src, dst)
    ensures multiset(AllFaqs(MoveFaq(list, src, dst))) == multiset(AllFaqs(list))
  {
    var si := FindCategory(list, src.droppableId.categoryId);
    var di := FindCategory(list, dst.droppableId.categoryId);
    if dst.droppableId == src.droppableId {
      ReorderKeepsFaqs(list, si, src.index, dst.index);
    } else {
      assert list[si].id != list[di].id;
      TransferKeepsFaqs(list, si, di, src.index, dst.index);
    }
  }

  /**
   * A category moved: the list is a permutation of the old one with the
   * dragged category at the destination index and the others in their old
   * order; every category keeps its FAQs, so the multiset of all FAQs is
   * unchanged.
   */
  lemma CategoryMove(list: seq<Category>, i: nat, j: nat)
    requires i < |list| && j < |list|
    ensures var r := InsertAt(RemoveAt(list, i), j, list[i]);
      multiset(r) == multiset(list) && r[j] == list[i] &&
      RemoveAt(r, j) == RemoveAt(list, i) &&
      multiset(AllFaqs(r)) == multiset(AllFaqs(list))
  {
    Move(list, i, j);
    AllFaqsRemove(list, i);
    AllFaqsInsert(RemoveAt(list, i), j, list[i]);
  }

  /** No drag adds, loses or duplicates a FAQ. */
  lemma DragKeepsFaqs(list: seq<Category>, d: DragResult)
    requires DragInBounds(list, d)
    ensures multiset(AllFaqs(DragEnd(list, d))) == multiset(AllFaqs(list))
  {
    if !IsNoOpDrag(d) {
      match d.kind
      case FaqDrag => FaqMoveKeepsFaqs(list, d.source, d.destination.value);
      case CategoryDrag => CategoryMove(list, d.source.index, d.destination.value.index);
      case OtherDrag =>
    }
  }

  // ---------------------------------------------------------------------
  // Grouping fetched FAQs into categories
  // ---------------------------------------------------------------------

  /**
   * Fetched FAQs start closed: only the expand flag changes, so the saved
   * form of a FAQ is the same whether or not it was closed.
   */
  function Closed(faq: Faq): (closed: Faq)
    ensures closed.expand == Some(false)
    ensures closed.(expand := faq.expand) == faq
    ensures StripFaq(closed) == StripFaq(faq)
  {
    faq.(expand := Some(false))
  }

  /**
   * The FAQs among the first `n` fetched whose category id is
   * `categoryId`, in fetched order: what the inner grouping loop has
   * appended to that category after `n` steps.
   */
  function InCategory(faqs: seq<Faq>, n: nat, categoryId: int): seq<Faq>
    requires n <= |faqs|
  {
    if n == 0 then []
    else InCategory(faqs, n - 1, categoryId) + (if faqs[n - 1].faqCategoryId == categoryId then [faqs[n - 1]] else [])
  }

  /** A FAQ is collected for a category exactly when it is among the first `n` fetched and has that category id. */
  lemma {:induction false} InCategoryMembers(faqs: seq<Faq>, n: nat, categoryId: int, f: Faq)
    requires n <= |faqs|
    ensures f in InCategory(faqs, n, categoryId) <==> f in faqs[..n] && f.faqCategoryId == categoryId
  {
    if n > 0 {
      InCategoryMembers(faqs, n - 1, categoryId, f);
      assert faqs[..n] == faqs[..n - 1] + [faqs[n - 1]];
    }
  }

  function BelongsTo(categoryId: int): Faq -> bool
  {
    (f: Faq) => f.faqCategoryId == categoryId
  }

  /** The FAQs collected for a category are the fetched prefix filtered by category id: order and multiplicity are kept. */
  lemma {:induction false} InCategoryIsFilter(faqs: seq<Faq>, n: nat, categoryId: int)
    requires n <= |faqs|
    ensures InCategory(faqs, n, categoryId) == Filter(faqs[..n], BelongsTo(categoryId))
  {
    if n > 0 {
      InCategoryIsFilter(faqs, n - 1, categoryId);
      assert faqs[..n] == faqs[..n - 1] + [faqs[n - 1]];
      FilterSnoc(faqs[..n - 1], faqs[n - 1], BelongsTo(categoryId));
    }
  }

  function ExistingFaqs(c: FetchedCategory): seq<Faq>
  {
    if c.faqs.Some? then c.faqs.value else []
  }

  /**
   * A category after grouping: its existing FAQs (or none) followed by the
   * fetched FAQs whose category id is its id, in fetched order.
   */
  function GroupCategory(c: FetchedCategory, faqs: seq<Faq>): Category
  {
    Category(c.id, c.name, c.displayOrder, ExistingFaqs(c) + InCategory(faqs, |faqs|, c.id))
  }

  /** The grouped category list: the categories in fetched order, each grouped. */
  function Grouped(categories: seq<FetchedCategory>, faqs: seq<Faq>): (list: seq<Category>)
    ensures |list| == |categories|
    ensures forall k :: 0 <= k < |categories| ==> list[k] == GroupCategory(categories[k], faqs)
  {
    seq(|categories|, k requires 0 <= k < |categories| => GroupCategory(categories[k], faqs))
  }

  /**
   * Each grouped category keeps its id, name and display order, keeps its
   * existing FAQs first, and then holds exactly the fetched FAQs with its id.
   */
  lemma GroupedCategory(categories: seq<FetchedCategory>, faqs: seq<Faq>, k: nat)
    requires k < |categories|
    ensures var c := categories[k];
      var g := Grouped(categories, faqs)[k];
      var n := |ExistingFaqs(c)|;
      g.id == c.id && g.name == c.name && g.displayOrder == c.displayOrder &&
      n <= |g.faqs| && g.faqs[..n] == ExistingFaqs(c) &&
      forall f :: f in g.faqs[n..] <==> f in faqs && f.faqCategoryId == c.id
  {
    var c := categories[k];
    var g := Grouped(categories, faqs)[k];
    var n := |ExistingFaqs(c)|;
    assert g.faqs[n..] == InCategory(faqs, |faqs|, c.id);
    assert faqs[..|faqs|] == faqs;
    forall f ensures f in g.faqs[n..] <==> f in faqs && f.faqCategoryId == c.id {
      InCategoryMembers(faqs, |faqs|, c.id, f);
    }
  }

  /** `highestCategoryId` after `n` steps of the fetch: 0 raised by each of the first `n` category ids in turn. */
  function HighestCategoryId(categories: seq<FetchedCategory>, n: nat): (h: int)
    requires n <= |categories|
    ensures h >= 0
  {
    if n == 0 then 0
    else
      var h := HighestCategoryId(categories, n - 1);
      if categories[n - 1].id > h then categories[n - 1].id else h
  }

  /**
   * The highest category id is the largest of the first `n` category ids,
   * or 0 when none of them is positive.
   */
  lemma {:induction false} HighestCategoryIdBounds(categories: seq<FetchedCategory>, n: nat)
    requires n <= |categories|
    ensures forall c :: c in categories[..n] ==> c.id <= HighestCategoryId(categories, n)
    ensures HighestCategoryId(categories, n) == 0 ||
      exists c :: c in categories[..n] && c.id == HighestCategoryId(categories, n)
  {
    if n > 0 {
      HighestCategoryIdBounds(categories, n - 1);
      assert categories[..n] == categories[..n - 1] + [categories[n - 1]];
    }
  }

  /** Some category of the list has the FAQ's category id. */
  predicate Placed(categories: seq<FetchedCategory>, f: Faq)
  {
    exists c :: c in categories && c.id == f.faqCategoryId
  }

  /**
   * The running `Math.max(highest, faq.id)` of the inner grouping loop
   * after `n` steps: `h` raised by the ids of the first `n` fetched FAQs
   * that have that category id.
   */
  function MaxFaqId(h: int, faqs: seq<Faq>, n: nat, categoryId: int): (m: int)
    requires n <= |faqs|
    ensures m >= h
  {
    if n == 0 then h
    else
      var m := MaxFaqId(h, faqs, n - 1, categoryId);
      if faqs[n - 1].faqCategoryId == categoryId && faqs[n - 1].id > m then faqs[n - 1].id else m
  }

  /**
   * The running maximum bounds the id of every matching FAQ among the
   * first `n`, and is either the starting value or the id of one of them.
   */
  lemma {:induction false} MaxFaqIdBounds(h: int, faqs: seq<Faq>, n: nat, categoryId: int)
    requires n <= |faqs|
    ensures forall f :: f in faqs[..n] && f.faqCategoryId == categoryId ==> f.id <= MaxFaqId(h, faqs, n, categoryId)
    ensures MaxFaqId(h, faqs, n, categoryId) == h ||
      exists f :: f in faqs[..n] && f.faqCategoryId == categoryId && f.id == MaxFaqId(h, faqs, n, categoryId)
  {
    if n > 0 {
      MaxFaqIdBounds(h, faqs, n - 1, categoryId);
      assert faqs[..n] == faqs[..n - 1] + [faqs[n - 1]];
    }
  }

  /**
   * `highestFaqId` after `n` steps of the fetch: 0 raised, category by
   * category, by the ids of the fetched FAQs placed in each of the first
   * `n` categories.
   */
  function HighestFaqId(categories: seq<FetchedCategory>, n: nat, faqs: seq<Faq>): (h: int)
    requires n <= |categories|
    ensures h >= 0
  {
    if n == 0 then 0
    else MaxFaqId(HighestFaqId(categories, n - 1, faqs), faqs, |faqs|, categories[n - 1].id)
  }

  /**
   * The highest FAQ id is the largest id of a fetched FAQ placed in one of
   * the first `n` categories, or 0 when there is none. A FAQ whose category
   * is not among them does not raise it.
   */
  lemma {:induction false} HighestFaqIdBounds(categories: seq<FetchedCategory>, n: nat, faqs: seq<Faq>)
    requires n <= |categories|
    ensures forall f :: f in faqs && Placed(categories[..n], f) ==> f.id <= HighestFaqId(categories, n, faqs)
    ensures HighestFaqId(categories, n, faqs) == 0 ||
      exists f :: f in faqs && Placed(categories[..n], f) && f.id == HighestFaqId(categories, n, faqs)
  {
    if n > 0 {
      var init := categories[..n - 1];
      var last := categories[n - 1];
      var h0 := HighestFaqId(categories, n - 1, faqs);
      var h := HighestFaqId(categories, n, faqs);
      assert categories[..n] == init + [last];
      HighestFaqIdBounds(categories, n - 1, faqs);
      MaxFaqIdBounds(h0, faqs, |faqs|, last.id);
      assert faqs[..|faqs|] == faqs;
      forall f | f in faqs && Placed(categories[..n], f) ensures f.id <= h {
        var c :| c in categories[..n] && c.id == f.faqCategoryId;
        if c != last {
          assert c in init && Placed(init, f);
        }
      }
      if h != 0 {
        if h == h0 {
          var f :| f in faqs && Placed(init, f) && f.id == h0;
          var c :| c in init && c.id == f.faqCategoryId;
          assert c in categories[..n];
          assert Placed(categories[..n], f);
        } else {
          var f :| f in faqs && f.faqCategoryId == last.id && f.id == h;
          assert last in categories[..n];
          assert Placed(categories[..n], f);
        }
      }
    }
  }

  // ---------------------------------------------------------------------
  // Adding, editing and deleting
  // ---------------------------------------------------------------------

  /**
   * `handleAddCategory`: one new category at the end, with id
   * `highestCategoryId + 1`, display order ten past the last category's,
   * an empty name and no FAQs. The counter itself is not advanced.
   */
  function AddCategory(list: seq<Category>, highestCategoryId: int): (r: seq<Category>)
    requires |list| > 0
    ensures |r| == |list| + 1 && r[..|list|] == list
    ensures r[|list|] == Category(highestCategoryId + 1, "", list[|list| - 1].displayOrder + 10, [])
  {
    list + [Category(highestCategoryId + 1, "", list[|list| - 1].displayOrder + 10, [])]
  }

  /** Two categories added in a row, with no save in between, get the same id. */
  lemma TwoAddedCategoriesShareId(list: seq<Category>, highestCategoryId: int)
    requires |list| > 0
    ensures var r := AddCategory(AddCategory(list, highestCategoryId), highestCategoryId);
      |r| == |list| + 2 && r[|list|].id == r[|list| + 1].id == highestCategoryId + 1
  {
  }

  /** A list whose last display order is 30 and highest id is 5 gains category 6 with display order 40. */
  lemma AddCategoryExample(list: seq<Category>)
    requires |list| > 0 && list[|list| - 1].displayOrder == 30
    ensures AddCategory(list, 5)[|list|].id == 6
    ensures AddCategory(list, 5)[|list|].displayOrder == 40
  {
  }

  function NotCategory(categoryId: int): Category -> bool
  {
    (c: Category) => c.id != categoryId
  }

  /**
   * `handleDeleteCategory`: every category with that id is removed; the
   * others stay, in their order.
   */
  function DeleteCategory(list: seq<Category>, categoryId: int): (r: seq<Category>)
    ensures forall c :: c in r <==> c in list && c.id != categoryId
    ensures forall c: Category :: c.id != categoryId ==> multiset(r)[c] == multiset(list)[c]
  {
    FilterMultiset(list, NotCategory(categoryId));
    Filter(list, NotCategory(categoryId))
  }

  /** Deleting categories keeps the order of the rest: it distributes over concatenation. */
  lemma DeleteCategoryKeepsOrder(a: seq<Category>, b: seq<Category>, categoryId: int)
    ensures DeleteCategory(a + b, categoryId) == DeleteCategory(a, categoryId) + DeleteCategory(b, categoryId)
  {
    FilterConcat(a, b, NotCategory(categoryId));
  }

  /**
   * Deleting the category just added restores the list, provided no
   * category already had the new id.
   */
  lemma DeleteAddedCategory(list: seq<Category>, highestCategoryId: int)
    requires |list| > 0
    requires forall c :: c in list ==> c.id != highestCategoryId + 1
    ensures DeleteCategory(AddCategory(list, highestCategoryId), highestCategoryId + 1) == list
  {
    var added := Category(highestCategoryId + 1, "", list[|list| - 1].displayOrder + 10, []);
    FilterSnoc(list, added, NotCategory(highestCategoryId + 1));
    FilterAll(list, NotCategory(highestCategoryId + 1));
  }

  /**
   * The FAQ `handleAddFAQ` creates: id `highestFaqId + 1`, the given
   * category's id, closed, and display order ten past the last FAQ of the
   * category object it was given.
   */
  function NewFaq(category: Category, question: string, answer: string, highestFaqId: int): (faq: Faq)
    requires |category.faqs| > 0
    ensures faq.faqCategoryId == category.id && faq.expand == Some(false)
    ensures faq.question == question && faq.answer == answer
    ensures faq.displayOrder > category.faqs[|category.faqs| - 1].displayOrder
    ensures (forall f :: f in category.faqs ==> f.id <= highestFaqId) ==>
      forall f :: f in category.faqs ==> f.id != faq.id
  {
    Faq(highestFaqId + 1, question, answer, category.id,
        category.faqs[|category.faqs| - 1].displayOrder + 10, Some(false))
  }

  /**
   * `handleAddFAQ`: every category with the given category's id gets the
   * new FAQ appended; no other category changes and no field other than
   * `faqs` changes.
   */
  function AddFaq(list: seq<Category>, category: Category, question: string, answer: string, highestFaqId: int): (r: seq<Category>)
    requires |category.faqs| > 0
    ensures |r| == |list|
    ensures forall k :: 0 <= k < |list| ==> r[k].(faqs := list[k].faqs) == list[k]
    ensures forall k :: 0 <= k < |list| ==>
      r[k].faqs == if list[k].id == category.id then list[k].faqs + [NewFaq(category, question, answer, highestFaqId)] else list[k].faqs
  {
    var faq := NewFaq(category, question, answer, highestFaqId);
    seq(|list|, k requires 0 <= k < |list| =>
      if list[k].id == category.id then list[k].(faqs := list[k].faqs + [faq]) else list[k])
  }

  /**
   * Two FAQs added to a category in a row, with no save in between, get the
   * same id and the same display order.
   */
  lemma TwoAddedFaqsShareId(list: seq<Category>, category: Category, q1: string, a1: string, q2: string, a2: string, highestFaqId: int, k: nat)
    requires |category.faqs| > 0 && k < |list| && list[k].id == category.id
    ensures var r := AddFaq(AddFaq(list, category, q1, a1, highestFaqId), category, q2, a2, highestFaqId);
      var n := |list[k].faqs|;
      |r[k].faqs| == n + 2 &&
      r[k].faqs[n].id == r[k].faqs[n + 1].id == highestFaqId + 1 &&
      r[k].faqs[n].displayOrder == r[k].faqs[n + 1].displayOrder
  {
  }

  function EditFaqs(faqs: seq<Faq>, faqId: int, question: string, answer: string): seq<Faq>
  {
    seq(|faqs|, m requires 0 <= m < |faqs| =>
      if faqs[m].id == faqId then faqs[m].(question := question, answer := answer) else faqs[m])
  }

  /**
   * `handleEditFAQ`: the FAQs with that id inside the categories with that
   * id get the new question and answer; every other FAQ, every position
   * and every other field stays as it was.
   */
  function EditFaq(list: seq<Category>, categoryId: int, faqId: int, question: string, answer: string): (r: seq<Category>)
    ensures |r| == |list|
    ensures forall k :: 0 <= k < |list| ==>
      r[k].(faqs := list[k].faqs) == list[k] && |r[k].faqs| == |list[k].faqs|
    ensures forall k, m :: 0 <= k < |list| && 0 <= m < |list[k].faqs| ==>
      r[k].faqs[m] == if list[k].id == categoryId && list[k].faqs[m].id == faqId
        then list[k].faqs[m].(question := question, answer := answer)
        else list[k].faqs[m]
  {
    seq(|list|, k requires 0 <= k < |list| =>
      if list[k].id == categoryId then list[k].(faqs := EditFaqs(list[k].faqs, faqId, question, answer)) else list[k])
  }

  /** Editing twice with the same text is editing once. */
  lemma EditFaqIdempotent(list: seq<Category>, categoryId: int, faqId: int, question: string, answer: string)
    ensures EditFaq(EditFaq(list, categoryId, faqId, question, answer), categoryId, faqId, question, answer)
         == EditFaq(list, categoryId, faqId, question, answer)
  {
    var once := EditFaq(list, categoryId, faqId, question, answer);
    var twice := EditFaq(once, categoryId, faqId, question, answer);
    forall k | 0 <= k < |list| ensures twice[k] == once[k] {
      assert twice[k].faqs == once[k].faqs;
    }
  }

  function NotFaq(faqId: int): Faq -> bool
  {
    (f: Faq) => f.id != faqId
  }

  /**
   * `handleDeleteFAQ`: inside the categories with that id, the FAQs with
   * that id are removed and the rest keep their order
   * (`DeleteFaqKeepsRest`); every other category and every field other than
   * `faqs` stays as it was.
   */
  function DeleteFaq(list: seq<Category>, categoryId: int, faqId: int): (r: seq<Category>)
    ensures |r| == |list|
    ensures forall k :: 0 <= k < |list| ==> r[k].(faqs := list[k].faqs) == list[k]
    ensures forall k :: 0 <= k < |list| && list[k].id != categoryId ==> r[k] == list[k]
    ensures forall k, f :: 0 <= k < |list| && list[k].id == categoryId ==>
      (f in r[k].faqs <==> f in list[k].faqs && f.id != faqId)
  {
    seq(|list|, k requires 0 <= k < |list| =>
      if list[k].id == categoryId then list[k].(faqs := Filter(list[k].faqs, NotFaq(faqId))) else list[k])
  }

  /**
   * Inside a category with that id, every other FAQ keeps its multiplicity,
   * and deletion distributes over any split of the category's FAQs, so
   * the FAQs left keep their order.
   */
  lemma DeleteFaqKeepsRest(list: seq<Category>, categoryId: int, faqId: int, k: nat, a: seq<Faq>, b: seq<Faq>)
    requires k < |list| && list[k].id == categoryId && list[k].faqs == a + b
    ensures forall f: Faq :: f.id != faqId ==>
      multiset(DeleteFaq(list, categoryId, faqId)[k].faqs)[f] == multiset(list[k].faqs)[f]
    ensures DeleteFaq(list, categoryId, faqId)[k].faqs ==
      DeleteFaq([list[k].(faqs := a)], categoryId, faqId)[0].faqs + DeleteFaq([list[k].(faqs := b)], categoryId, faqId)[0].faqs
  {
    FilterMultiset(list[k].faqs, NotFaq(faqId));
    FilterConcat(a, b, NotFaq(faqId));
  }

  /**
   * Deleting the FAQ just added restores the list, provided no FAQ of that
   * category already had the new id.
   */
  lemma DeleteAddedFaq(list: seq<Category>, category: Category, question: string, answer: string, highestFaqId: int)
    requires |category.faqs| > 0
    requires forall k, f :: 0 <= k < |list| && list[k].id == category.id && f in list[k].faqs ==> f.id != highestFaqId + 1
    ensures DeleteFaq(AddFaq(list, category, question, answer, highestFaqId), category.id, highestFaqId + 1) == list
  {
    var faq := NewFaq(category, question, answer, highestFaqId);
    var r := DeleteFaq(AddFaq(list, category, question, answer, highestFaqId), category.id, highestFaqId + 1);
    forall k | 0 <= k < |list| ensures r[k] == list[k] {
      if list[k].id == category.id {
        FilterSnoc(list[k].faqs, faq, NotFaq(highestFaqId + 1));
        FilterAll(list[k].faqs, NotFaq(highestFaqId + 1));
      }
    }
  }

  // ---------------------------------------------------------------------
  // Expanding, collapsing, and stripping before save
  // ---------------------------------------------------------------------

  /**
   * `expandFaq` (`open` true) and `collapseFaq` (`open` false): every FAQ
   * with that id, in every category, gets that flag; nothing else changes.
   */
  function SetExpand(list: seq<Category>, faqId: int, open: bool): (r: seq<Category>)
    ensures |r| == |list|
    ensures forall k :: 0 <= k < |list| ==>
      r[k].(faqs := list[k].faqs) == list[k] && |r[k].faqs| == |list[k].faqs|
    ensures forall k, m :: 0 <= k < |list| && 0 <= m < |list[k].faqs| ==>
      r[k].faqs[m] == if list[k].faqs[m].id == faqId then list[k].faqs[m].(expand := Some(open)) else list[k].faqs[m]
  {
    seq(|list|, k requires 0 <= k < |list| =>
      list[k].(faqs := seq(|list[k].faqs|, m requires 0 <= m < |list[k].faqs| =>
        if list[k].faqs[m].id == faqId then list[k].faqs[m].(expand := Some(open)) else list[k].faqs[m])))
  }

  /**
   * The FAQ-list half of `toggleExpandCollapse`: every FAQ gets the flag
   * `open`; nothing else changes.
   */
  function ExpandAll(list: seq<Category>, open: bool): (r: seq<Category>)
    ensures |r| == |list|
    ensures forall k :: 0 <= k < |list| ==>
      r[k].(faqs := list[k].faqs) == list[k] && |r[k].faqs| == |list[k].faqs|
    ensures forall k, m :: 0 <= k < |list| && 0 <= m < |list[k].faqs| ==>
      r[k].faqs[m] == list[k].faqs[m].(expand := Some(open))
  {
    seq(|list|, k requires 0 <= k < |list| =>
      list[k].(faqs := seq(|list[k].faqs|, m requires 0 <= m < |list[k].faqs| =>
        list[k].faqs[m].(expand := Some(open)))))
  }

  /** Only the last of two toggles matters. */
  lemma ExpandAllTwice(list: seq<Category>, first: bool, second: bool)
    ensures ExpandAll(ExpandAll(list, first), second) == ExpandAll(list, second)
  {
    var r1 := ExpandAll(ExpandAll(list, first), second);
    var r2 := ExpandAll(list, second);
    forall k | 0 <= k < |list| ensures r1[k] == r2[k] {
      assert r1[k].faqs == r2[k].faqs;
    }
  }

  /** The save payload of one FAQ: the `expand` field removed, every other field kept. */
  function StripFaq(faq: Faq): Faq
  {
    faq.(expand := None)
  }

  /** The save payload of one category. */
  function StripCategory(c: Category): (s: Category)
    ensures s.(faqs := c.faqs) == c && |s.faqs| == |c.faqs|
    ensures forall m :: 0 <= m < |c.faqs| ==> s.faqs[m] == c.faqs[m].(expand := None)
  {
    c.(faqs := MapSeq(c.faqs, StripFaq))
  }

  /** The save payload: every FAQ without its `expand` field, nothing else changed. */
  function Stripped(list: seq<Category>): (r: seq<Category>)
    ensures |r| == |list|
    ensures forall k :: 0 <= k < |list| ==>
      r[k].(faqs := list[k].faqs) == list[k] && |r[k].faqs| == |list[k].faqs|
    ensures forall k, m :: 0 <= k < |list| && 0 <= m < |list[k].faqs| ==>
      r[k].faqs[m] == list[k].faqs[m].(expand := None)
  {
    MapSeq(list, StripCategory)
  }

  /** Stripping twice is stripping once. */
  lemma StrippedIdempotent(list: seq<Category>)
    ensures Stripped(Stripped(list)) == Stripped(list)
  {
    var r1 := Stripped(Stripped(list));
    var r2 := Stripped(list);
    forall k | 0 <= k < |list| ensures r1[k] == r2[k] {
      assert r1[k].faqs == r2[k].faqs;
    }
  }

  /** Opening and closing FAQs never reaches the save payload. */
  lemma ExpansionNotSaved(list: seq<Category>, faqId: int, open: bool)
    ensures Stripped(ExpandAll(list, open)) == Stripped(list)
    ensures Stripped(SetExpand(list, faqId, open)) == Stripped(list)
  {
    var r1 := Stripped(ExpandAll(list, open));
    var r2 := Stripped(list);
    var r3 := Stripped(SetExpand(list, faqId, open));
    forall k | 0 <= k < |list| ensures r1[k] == r2[k] && r3[k] == r2[k] {
      assert r1[k].faqs == r2[k].faqs;
      assert r3[k].faqs == r2[k].faqs;
    }
  }
}

=== FILE: FaqView.dfy ===
/**
 * The FAQ page's state and its handlers. The page keeps five pieces of
 * state, updated in place by its handlers; each handler here is specified by
 * the function of module `FaqModel` that computes the new list, and the
 * properties of those functions are proved there.
 */
module FaqEditor {
  import opened Js
  import opened Seqs
  import opened FaqModel

  /**
   * The inner loop of `fetchFaqData` for one category: the category's
   * existing FAQs (or none) with every fetched FAQ of that category appended
   * in fetched order, and the running highest FAQ id advanced over the
   * appended FAQs' ids.
   */
  method CollectFaqs(category: FetchedCategory, faqs: seq<Faq>, highestFaqId: int)
    returns (categoryFaqs: seq<Faq>, highest: int)
    ensures categoryFaqs == ExistingFaqs(category) + InCategory(faqs, |faqs|, category.id)
    ensures highest == MaxFaqId(highestFaqId, faqs, |faqs|, category.id)
  {
    categoryFaqs := if category.faqs.Some? then category.faqs.value else [];
    highest := highestFaqId;
    var j := 0;
    while j < |faqs|
      invariant 0 <= j <= |faqs|
      invariant categoryFaqs == ExistingFaqs(category) + InCategory(faqs, j, category.id)
      invariant highest == MaxFaqId(highestFaqId, faqs, j, category.id)
    {
      var faq := faqs[j];
      if category.id == faq.faqCategoryId {
        categoryFaqs := categoryFaqs + [faq];
        highest := if faq.id > highest then faq.id else highest;
      }
      j := j + 1;
    }
  }

  /**
   * The two grouping loops of `fetchFaqData`: each category, in fetched
   * order, gets the FAQs whose category id is its own appended to the FAQs
   * it already had, while the running highest category id and highest FAQ
   * id advance.
   */
  method GroupFaqs(categories: seq<FetchedCategory>, faqs: seq<Faq>)
    returns (grouped: seq<Category>, highestFaq: int, highestCategory: int)
    ensures grouped == Grouped(categories, faqs)
    ensures highestCategory == HighestCategoryId(categories, |categories|)
    ensures highestFaq == HighestFaqId(categories, |categories|, faqs)
  {
    highestFaq := 0;
    highestCategory := 0;
    grouped := [];
    var i := 0;
    while i < |categories|
      invariant 0 <= i <= |categories|
      invariant |grouped| == i
      invariant forall k {:trigger grouped[k]} :: 0 <= k < i ==> grouped[k] == GroupCategory(categories[k], faqs)
      invariant highestCategory == HighestCategoryId(categories, i)
      invariant highestFaq == HighestFaqId(categories, i, faqs)
    {
      var category := categories[i];
      highestCategory := if category.id > highestCategory then category.id else highestCategory;
      var categoryFaqs;
      categoryFaqs, highestFaq := CollectFaqs(category, faqs, highestFaq);
      grouped := grouped + [Category(category.id, category.name, category.displayOrder, categoryFaqs)];
      i := i + 1;
    }
  }

  class FaqView {
    var faqCategoryList: seq<Category>
    var highestFaqId: int
    var highestCategoryId: int
    var expanded: bool
    var admin: bool

    /** The state before the first fetch: no categories, both counters 0, collapsed, not editing. */
    constructor ()
      ensures faqCategoryList == [] && highestFaqId == 0 && highestCategoryId == 0
      ensures !expanded && !admin
    {
      faqCategoryList := [];
      highestFaqId := 0;
      highestCategoryId := 0;
      expanded := false;
      admin := false;
    }

    /**
     * `fetchFaqData`, given the two server responses: every fetched FAQ is
     * closed and grouped into its category, and the counters become the
     * largest category id and the largest id of a FAQ that was placed (0
     * when there is none).
     */
    method FetchFaqData(faqData: seq<Faq>, categories: seq<FetchedCategory>)
      modifies this
      ensures faqCategoryList == Grouped(categories, MapSeq(faqData, Closed))
      ensures highestCategoryId == HighestCategoryId(categories, |categories|)
      ensures highestFaqId == HighestFaqId(categories, |categories|, MapSeq(faqData, Closed))
      ensures expanded == old(expanded) && admin == old(admin)
    {
      var faqs := MapSeq(faqData, Closed);
      faqCategoryList, highestFaqId, highestCategoryId := GroupFaqs(categories, faqs);
    }

    /**
     * `handleDragEnd`: a drop outside every target or onto its own place
     * changes nothing; a FAQ drag splices the FAQ out of its category and
     * into the destination category; a category drag splices the category
     * out of the list and back in at the destination.
     */
    method HandleDragEnd(d: DragResult)
      requires DragInBounds(faqCategoryList, d)
      modifies this
      ensures faqCategoryList == DragEnd(old(faqCategoryList), d)
      ensures highestFaqId == old(highestFaqId) && highestCategoryId == old(highestCategoryId)
      ensures expanded == old(expanded) && admin == old(admin)
    {
      if IsNoOpDrag(d) {
        return;
      }
      var source := d.source;
      var destination := d.destination.value;
      var prevState := faqCategoryList;
      var newState := prevState;
      match d.kind {
        case FaqDrag =>
          var sourceCategoryIndex := FindCategory(prevState, source.droppableId.categoryId);
          var destinationCategoryIndex := FindCategory(prevState, destination.droppableId.categoryId);
          var draggedFaq := prevState[sourceCategoryIndex].faqs[source.index];
          var sourceFaqs := RemoveAt(prevState[sourceCategoryIndex].faqs, source.index);
          newState := newState[sourceCategoryIndex := prevState[sourceCategoryIndex].(faqs := sourceFaqs)];
          if destination.droppableId == source.droppableId {
            var newFaqs := InsertAt(sourceFaqs, destination.index, draggedFaq);
            newState := newState[sourceCategoryIndex := newState[sourceCategoryIndex].(faqs := newFaqs)];
          } else {
            var destinationFaqs := InsertAt(prevState[destinationCategoryIndex].faqs, destination.index, draggedFaq);
            newState := newState[destinationCategoryIndex := prevState[destinationCategoryIndex].(faqs := destinationFaqs)];
          }
        case CategoryDrag =>
          var draggedCategory := newState[source.index];
          newState := RemoveAt(newState, source.index);
          newState := InsertAt(newState, destination.index, draggedCategory);
        case OtherDrag =>
      }
      faqCategoryList := newState;
    }

    /**
     * `submitFaqData`: the payload is the category list with the `expand`
     * field stripped from every FAQ. The array is copied but the category
     * objects are shared with the page state, so the state's FAQs lose the
     * field too.
     */
    method SubmitFaqData() returns (payload: seq<Category>)
      modifies this
      ensures payload == Stripped(old(faqCategoryList))
      ensures faqCategoryList == payload
      ensures highestFaqId == old(highestFaqId) && highestCategoryId == old(highestCategoryId)
      ensures expanded == old(expanded) && admin == old(admin)
    {
      var i := 0;
      while i < |faqCategoryList|
        invariant 0 <= i <= |faqCategoryList| == |old(faqCategoryList)|
        invariant faqCategoryList[..i] == Stripped(old(faqCategoryList))[..i]
        invariant faqCategoryList[i..] == old(faqCategoryList)[i..]
        invariant highestFaqId == old(highestFaqId) && highestCategoryId == old(highestCategoryId)
        invariant expanded == old(expanded) && admin == old(admin)
      {
        assert faqCategoryList[i] == old(faqCategoryList)[i] by {
          assert faqCategoryList[i..][0] == old(faqCategoryList)[i..][0];
        }
        faqCategoryList := faqCategoryList[i := StripCategory(faqCategoryList[i])];
        i := i + 1;
      }
      assert faqCategoryList == faqCategoryList[..i];
      payload := faqCategoryList;
    }

    /** `handleAddCategory`: the new category goes at the end; the counter is left as it was. */
    method HandleAddCategory()
      requires |faqCategoryList| > 0
      modifies this
      ensures faqCategoryList == AddCategory(old(faqCategoryList), highestCategoryId)
      ensures highestFaqId == old(highestFaqId) && highestCategoryId == old(highestCategoryId)
      ensures expanded == old(expanded) && admin == old(admin)
    {
      var last := faqCategoryList[|faqCategoryList| - 1];
      var newCategory := Category(highestCategoryId + 1, "", last.displayOrder + 10, []);
      faqCategoryList := faqCategoryList + [newCategory];
    }

    /** `handleDeleteCategory`: the categories with that id are removed. */
    method HandleDeleteCategory(categoryId: int)
      modifies this
      ensures faqCategoryList == DeleteCategory(old(faqCategoryList), categoryId)
      ensures highestFaqId == old(highestFaqId) && highestCategoryId == old(highestCategoryId)
      ensures expanded == old(expanded) && admin == old(admin)
    {
      faqCategoryList := DeleteCategory(faqCategoryList, categoryId);
    }

    /**
     * `handleAddFAQ`: the new FAQ is appended to the categories with the
     * given category's id; the counter is left as it was.
     */
    method HandleAddFaq(category: Category, question: string, answer: string)
      requires |category.faqs| > 0
      modifies this
      ensures faqCategoryList == AddFaq(old(faqCategoryList), category, question, answer, highestFaqId)
      ensures highestFaqId == old(highestFaqId) && highestCategoryId == old(highestCategoryId)
      ensures expanded == old(expanded) && admin == old(admin)
    {
      faqCategoryList := AddFaq(faqCategoryList, category, question, answer, highestFaqId);
    }

    /** `handleEditFAQ`. */
    method HandleEditFaq(categoryId: int, faqId: int, question: string, answer: string)
      modifies this
      ensures faqCategoryList == EditFaq(old(faqCategoryList), categoryId, faqId, question, answer)
      ensures highestFaqId == old(highestFaqId) && highestCategoryId == old(highestCategoryId)
      ensures expanded == old(expanded) && admin == old(admin)
    {
      faqCategoryList := EditFaq(faqCategoryList, categoryId, faqId, question, answer);
    }

    /** `handleDeleteFAQ`. */
    method HandleDeleteFaq(categoryId: int, faqId: int)
      modifies this
      ensures faqCategoryList == DeleteFaq(old(faqCategoryList), categoryId, faqId)
      ensures highestFaqId == old(highestFaqId) && highestCategoryId == old(highestCategoryId)
      ensures expanded == old(expanded) && admin == old(admin)
    {
      faqCategoryList := DeleteFaq(faqCategoryList, categoryId, faqId);
    }

    /** `expandFaq`: every FAQ with the given FAQ's id is opened. */
    method ExpandFaq(faq: Faq)
      modifies this
      ensures faqCategoryList == SetExpand(old(faqCategoryList), faq.id, true)
      ensures highestFaqId == old(highestFaqId) && highestCategoryId == old(highestCategoryId)
      ensures expanded == old(expanded) && admin == old(admin)
    {
      faqCategoryList := SetExpand(faqCategoryList, faq.id, true);
    }

    /** `collapseFaq`: every FAQ with the given FAQ's id is closed. */
    method CollapseFaq(faq: Faq)
      modifies this
      ensures faqCategoryList == SetExpand(old(faqCategoryList), faq.id, false)
      ensures highestFaqId == old(highestFaqId) && highestCategoryId == old(highestCategoryId)
      ensures expanded == old(expanded) && admin == old(admin)
    {
      faqCategoryList := SetExpand(faqCategoryList, faq.id, false);
    }

    /**
     * `toggleExpandCollapse`: the page-wide flag flips, and every FAQ takes
     * the flipped value, so afterwards every FAQ agrees with the flag.
     */
    method ToggleExpandCollapse()
      modifies this
      ensures expanded == !old(expanded)
      ensures faqCategoryList == ExpandAll(old(faqCategoryList), expanded)
      ensures highestFaqId == old(highestFaqId) && highestCategoryId == old(highestCategoryId)
      ensures admin == old(admin)
    {
      var wasExpanded := expanded;
      expanded := !wasExpanded;
      faqCategoryList := ExpandAll(faqCategoryList, !wasExpanded);
    }

    /**
     * `handleAdminChange`: leaving edit mode saves (the payload is returned
     * in place of the POST) and turns editing off; entering edit mode saves
     * nothing.
     */
    method HandleAdminChange() returns (saved: Option<seq<Category>>)
      modifies this
      ensures admin == !old(admin)
      ensures saved.Some? <==> old(admin)
      ensures old(admin) ==> saved.value == Stripped(old(faqCategoryList)) && faqCategoryList == saved.value
      ensures !old(admin) ==> faqCategoryList == old(faqCategoryList)
      ensures highestFaqId == old(highestFaqId) && highestCategoryId == old(highestCategoryId)
      ensures expanded == old(expanded)
    {
      if admin {
        var payload := SubmitFaqData();
        saved := Some(payload);
        admin := false;
      } else {
        saved := None;
        admin := true;
      }
    }
  }
}

=== FILE: Js.dfy ===
/**
 * JavaScript values as the components see them.
 *
 * Rule fields such as `value` and `calcValue` are untyped in the source:
 * they may hold null, a boolean, a number or a string. The components only
 * ever ask whether such a value is truthy, compare it with the string "0",
 * or hand it to `Math.round`, so that is all this module offers.
 */
module Js {

  /** A value that may be null or undefined. */
  datatype Option<+T> = None | Some(value: T)

  /**
   * A JavaScript primitive. `JNull` is null and `JUndefined` is undefined,
   * which is also what reading a missing field gives.
   */
  datatype JsValue = JNull | JUndefined | JBool(b: bool) | JNum(n: real) | JStr(s: string)

  /** JavaScript truthiness: null, undefined, false, 0 and "" are falsy, everything else truthy. */
  predicate Truthy(v: JsValue)
  {
    match v
    case JNull => false
    case JUndefined => false
    case JBool(b) => b
    case JNum(n) => n != 0.0
    case JStr(s) => s != ""
  }

  /** The falsy values of `JsValue`, listed one by one. */
  lemma FalsyValues(v: JsValue)
    ensures !Truthy(v) <==> v in {JNull, JUndefined, JBool(false), JNum(0.0), JStr("")}
  {
  }

  predicate IsDigit(c: char)
  {
    '0' <= c <= '9'
  }

  /** The number written by a non-empty string of decimal digits. */
  function DigitsValue(s: string): (n: nat)
    requires forall i :: 0 <= i < |s| ==> IsDigit(s[i])
    ensures |s| > 0 && s[0] != '0' ==> n >= Pow10(|s| - 1)
    ensures n < Pow10(|s|)
  {
    if s == [] then 0
    else
      var k := |s| - 1;
      assert IsDigit(s[k]);
      var d := DigitValue(s[k]);
      var m := DigitsValue(s[..k]);
      assert k > 0 ==> s[..k][0] == s[0];
      assert Pow10(|s|) == 10 * Pow10(k);
      assert m * 10 + d < 10 * Pow10(k) by { assert m + 1 <= Pow10(k); }
      m * 10 + d
  }

  function DigitValue(c: char): int
  {
    (c as int) - ('0' as int)
  }

  /**
   * The value of a digit string read from the front: the leading digit
   * weighs ten to the power of the number of digits after it.
   */
  lemma {:induction false} DigitsValueCons(d: char, s: string)
    requires IsDigit(d) && forall i :: 0 <= i < |s| ==> IsDigit(s[i])
    ensures DigitsValue([d] + s) == DigitValue(d) * Pow10(|s|) + DigitsValue(s)
    decreases |s|
  {
    var t := [d] + s;
    if s == [] {
      assert t[..0] == [];
    } else {
      var k := |s| - 1;
      var dv, p, m, e := DigitValue(d), Pow10(k), DigitsValue(s[..k]), DigitValue(s[k]);
      assert t[..|t| - 1] == [d] + s[..k];
      DigitsValueCons(d, s[..k]);
      assert DigitsValue(t) == (dv * p + m) * 10 + e;
      assert DigitsValue(s) == m * 10 + e;
      var q := dv * p;
      assert (q + m) * 10 + e == q * 10 + (m * 10 + e);
      assert Pow10(|s|) == 10 * p;
      MulTen(dv, p);
    }
  }

  lemma MulTen(x: int, y: int)
    ensures x * (10 * y) == (x * y) * 10
  {
  }

  function Pow10(k: nat): (p: nat)
    ensures p >= 1
  {
    if k == 0 then 1 else 10 * Pow10(k - 1)
  }

  /**
   * Number coercion, as `Math.round` applies it to its argument; `None` is NaN.
   * null and false become 0, true becomes 1, the empty string 0 and a string
   * of decimal digits the number it writes; undefined becomes NaN.
   */
  function ToNumber(v: JsValue): (r: Option<real>)
    ensures v.JNum? ==> r == Some(v.n)
    ensures v.JNull? ==> r == Some(0.0)
    ensures v.JUndefined? ==> r.None?
    ensures v.JBool? ==> r == Some(if v.b then 1.0 else 0.0)
    ensures v.JStr? ==> (r.Some? <==> forall i :: 0 <= i < |v.s| ==> IsDigit(v.s[i]))
    ensures v.JStr? && r.Some? ==> r.value == DigitsValue(v.s) as real && r.value >= 0.0
  {
    match v
    case JNull => Some(0.0)
    case JUndefined => None
    case JBool(b) => Some(if b then 1.0 else 0.0)
    case JNum(n) => Some(n)
    case JStr(s) =>
      if forall i :: 0 <= i < |s| ==> IsDigit(s[i]) then Some(DigitsValue(s) as real) else None
  }

  /**
   * `Math.round` on an exact real: the nearest integer, halves rounded
   * towards positive infinity (so -2.5 rounds to -2).
   */
  function JsRound(x: real): (r: int)
    ensures x - 0.5 < r as real <= x + 0.5
  {
    (x + 0.5).Floor
  }

  /** `Math.round` never reverses the order of two numbers. */
  lemma JsRoundMonotone(x: real, y: real)
    requires x <= y
    ensures JsRound(x) <= JsRound(y)
  {
  }

  /** An integer rounds to itself. */
  lemma JsRoundInt(k: int)
    ensures JsRound(k as real) == k
  {
  }
}

=== FILE: Rules.dfy ===
/**
 * The rule: one named field or computed metric of a TDM project, and the
 * lookups and tests that the wizard and both summary screens apply to the
 * ordered list of rules.
 */
module Rules {
  import opened Js
  import opened Seqs

  /**
   * A rule as the components read it. `validationErrors` is null (`None`) or
   * an array of messages; `value` and `calcValue` are untyped; `comment` is
   * null or missing (`None`) or a string.
   */
  datatype Rule = Rule(
    code: string,
    name: string,
    category: string,
    calculationPanelId: int,
    value: JsValue,
    calcValue: JsValue,
    used: bool,
    display: bool,
    validationErrors: Option<seq<string>>,
    comment: Option<string>)

  /**
   * `!!rule.validationErrors`: any array counts, including an empty one;
   * only a null or missing array means "no errors".
   */
  predicate HasErrors(r: Rule)
    ensures r.validationErrors == Some([]) ==> HasErrors(r)
    ensures r.validationErrors.None? ==> !HasErrors(r)
  {
    r.validationErrors.Some?
  }

  /** Some rule of `rules` has errors (`rules.find(rule => !!rule.validationErrors)` is truthy). */
  predicate SomeHasErrors(rules: seq<Rule>)
  {
    exists r :: r in rules && HasErrors(r)
  }

  /** Some rule that passes the page filter `p` has errors. */
  lemma FilteredHasErrors(rules: seq<Rule>, p: Rule -> bool)
    ensures SomeHasErrors(Filter(rules, p)) <==> exists r :: r in rules && p(r) && HasErrors(r)
  {
  }

  function HasCode(code: string): Rule -> bool
  {
    (r: Rule) => r.code == code
  }

  /**
   * `getRule(code)`: `rules.filter(rule => rule.code === code)[0]`, or null
   * when no rule has that code. The result is the first rule in list order
   * whose code matches.
   */
  function GetRule(rules: seq<Rule>, code: string): (r: Option<Rule>)
    ensures r.None? <==> forall i :: 0 <= i < |rules| ==> rules[i].code != code
    ensures r.Some? ==>
      exists i :: 0 <= i < |rules| && rules[i] == r.value && rules[i].code == code &&
        forall j :: 0 <= j < i ==> rules[j].code != code
  {
    var matching := Filter(rules, HasCode(code));
    FilterHead(rules, HasCode(code));
    if |matching| > 0 then Some(matching[0]) else None
  }

  /** `i` is the index of the first rule in list order with that code. */
  predicate IsFirst(rules: seq<Rule>, code: string, i: int)
  {
    0 <= i < |rules| && rules[i].code == code && forall j :: 0 <= j < i ==> rules[j].code != code
  }

  /** The lookup returns the rule at the first index with that code, and that index is unique. */
  lemma GetRuleFirst(rules: seq<Rule>, code: string)
    ensures forall i :: IsFirst(rules, code, i) ==> GetRule(rules, code) == Some(rules[i])
  {
    forall i | IsFirst(rules, code, i) ensures GetRule(rules, code) == Some(rules[i]) {
      var r := GetRule(rules, code);
      var i' :| 0 <= i' < |rules| && rules[i'] == r.value && rules[i'].code == code &&
        forall j :: 0 <= j < i' ==> rules[j].code != code;
      assert !(i < i') && !(i' < i);
    }
  }

  /** Every lookup on an empty rule list misses. */
  lemma GetRuleEmpty(code: string)
    ensures GetRule([], code) == None
  {
  }

  /**
   * `!!(x && x !== "0")`: a value counts when it is truthy and is not the
   * string "0". The number 0 is already falsy; the string "0" is truthy in
   * JavaScript but is excluded here.
   */
  predicate Counts(x: JsValue)
    ensures Counts(x) <==> !Blank(x)
  {
    FalsyValues(x);
    Truthy(x) && x != JStr("0")
  }

  /** The values that never make a rule effective. */
  predicate Blank(x: JsValue)
  {
    x in {JNull, JUndefined, JBool(false), JNum(0.0), JStr(""), JStr("0")}
  }

  /**
   * An effective rule: its value or its calculated value is truthy and not
   * the string "0". A rule whose value and calcValue are both blank (null,
   * undefined, false, 0, "" or "0") is never effective, and any other rule is.
   */
  predicate IsEffective(r: Rule)
    ensures IsEffective(r) <==> !(Blank(r.value) && Blank(r.calcValue))
  {
    Counts(r.value) || Counts(r.calcValue)
  }

  // Codes of the rules that the summary screens look up by name.
  const ProjectLevel := "PROJECT_LEVEL"
  const ProjectDescription := "PROJECT_DESCRIPTION"
  const ParkRequirement := "PARK_REQUIREMENT"
  const ParkSpaces := "PARK_SPACES"
  const CalcParkRatio := "CALC_PARK_RATIO"
  const TargetPointsPark := "TARGET_POINTS_PARK"
  const PtsEarned := "PTS_EARNED"
  const StrategyApplicant := "STRATEGY_APPLICANT"

  /**
   * `Math.round(earned.value) >= Math.round(target.value)`: both values are
   * coerced to numbers and rounded; a value that coerces to NaN never meets
   * and is never met.
   */
  function PointsMeetTarget(earned: Rule, target: Rule): (meets: bool)
    ensures meets ==> ToNumber(earned.value).Some? && ToNumber(target.value).Some?
    ensures ToNumber(earned.value).Some? && ToNumber(target.value).Some? ==>
      (meets <==> JsRound(ToNumber(earned.value).value) >= JsRound(ToNumber(target.value).value))
  {
    match (ToNumber(earned.value), ToNumber(target.value))
    case (Some(e), Some(t)) => JsRound(e) >= JsRound(t)
    case _ => false
  }

  /**
   * An earned-points rule without a value (undefined, which `Math.round`
   * turns into NaN) never meets a target, whatever the target's value.
   */
  lemma MissingEarnedValueNeverMeets(earned: Rule, target: Rule)
    requires earned.value == JUndefined
    ensures !PointsMeetTarget(earned, target)
  {
  }

  /**
   * A null target coerces to 0, so any earned points that round to at
   * least 0 meet it: 20 earned points meet a null target.
   */
  lemma NullTargetCountsAsZero(earned: Rule, target: Rule)
    requires earned.value == JNum(20.0) && target.value == JNull
    ensures PointsMeetTarget(earned, target)
  {
    assert JsRound(20.0) == 20;
    assert JsRound(0.0) == 0;
  }

  /** Earned points at least as large as the target always meet it, after rounding. */
  lemma PointsAtLeastTargetMeet(earned: Rule, target: Rule)
    requires earned.value.JNum? && target.value.JNum?
    requires earned.value.n >= target.value.n
    ensures PointsMeetTarget(earned, target)
  {
    JsRoundMonotone(target.value.n, earned.value.n);
  }

  /**
   * Rounding happens before the comparison: 39.5 earned points meet a
   * target of 40, although they are fewer.
   */
  lemma RoundingBeforeComparison(earned: Rule, target: Rule)
    requires earned.value == JNum(39.5) && target.value == JNum(40.0)
    ensures PointsMeetTarget(earned, target)
  {
    assert JsRound(39.5) == 40;
    assert JsRound(40.0) == 40;
  }
}

=== FILE: Seqs.dfy ===
/**
 * The array operations the components use, on immutable sequences:
 * `filter`, `map`, `splice` (remove one element, insert one element)
 * and `join`.
 */
module Seqs {

  /**
   * `Array.prototype.filter`: the elements of `s` that satisfy `p`, in the
   * order they have in `s`.
   */
  function Filter<T(!new)>(s: seq<T>, p: T -> bool): (r: seq<T>)
    ensures |r| <= |s|
    ensures forall x :: x in r <==> x in s && p(x)
  {
    if s == [] then []
    else
      assert s == [s[0]] + s[1..];
      (if p(s[0]) then [s[0]] else []) + Filter(s[1..], p)
  }

  /** Each element that satisfies `p` is kept as often as it occurs in `s`; every other element is dropped. */
  lemma {:induction false} FilterMultiset<T(!new)>(s: seq<T>, p: T -> bool)
    ensures forall x :: multiset(Filter(s, p))[x] == if p(x) then multiset(s)[x] else 0
  {
    if s != [] {
      FilterMultiset(s[1..], p);
      assert s == [s[0]] + s[1..];
    }
  }

  /** Filtering keeps the order: it distributes over concatenation. */
  lemma {:induction false} FilterConcat<T(!new)>(a: seq<T>, b: seq<T>, p: T -> bool)
    ensures Filter(a + b, p) == Filter(a, p) + Filter(b, p)
  {
    if a == [] {
      assert a + b == b;
    } else {
      assert (a + b)[1..] == a[1..] + b;
      FilterConcat(a[1..], b, p);
    }
  }

  /** Filtering a prefix one element longer adds at most that element. */
  lemma FilterSnoc<T(!new)>(s: seq<T>, x: T, p: T -> bool)
    ensures Filter(s + [x], p) == Filter(s, p) + (if p(x) then [x] else [])
  {
    FilterConcat(s, [x], p);
  }

  /** Filtering with a predicate every element satisfies keeps the whole sequence. */
  lemma {:induction false} FilterAll<T(!new)>(s: seq<T>, p: T -> bool)
    requires forall x :: x in s ==> p(x)
    ensures Filter(s, p) == s
  {
    if s != [] {
      assert s[0] in s;
      assert forall x :: x in s[1..] ==> x in s;
      FilterAll(s[1..], p);
    }
  }

  /** Two predicates that agree everywhere select the same subsequence. */
  lemma {:induction false} FilterExt<T(!new)>(s: seq<T>, p: T -> bool, q: T -> bool)
    requires forall x :: p(x) == q(x)
    ensures Filter(s, p) == Filter(s, q)
  {
    if s != [] {
      FilterExt(s[1..], p, q);
    }
  }

  /** Filtering twice is filtering once with the conjunction. */
  lemma {:induction false} FilterFilter<T(!new)>(s: seq<T>, p: T -> bool, q: T -> bool, pq: T -> bool)
    requires forall x :: pq(x) == (p(x) && q(x))
    ensures Filter(Filter(s, p), q) == Filter(s, pq)
  {
    if s != [] {
      var t := s[1..];
      FilterFilter(t, p, q, pq);
      var fs := Filter(s, p);
      if p(s[0]) {
        assert fs == [s[0]] + Filter(t, p);
        assert fs[0] == s[0] && fs[1..] == Filter(t, p);
        assert Filter(fs, q) == (if q(s[0]) then [s[0]] else []) + Filter(Filter(t, p), q);
      } else {
        assert fs == Filter(t, p);
      }
    }
  }

  /**
   * The first element of the filtered sequence is the first element of `s`
   * that satisfies `p`; the filtered sequence is empty exactly when no
   * element does.
   */
  lemma {:induction false} FilterHead<T(!new)>(s: seq<T>, p: T -> bool)
    ensures |Filter(s, p)| == 0 <==> forall i :: 0 <= i < |s| ==> !p(s[i])
    ensures |Filter(s, p)| > 0 ==>
      exists i :: 0 <= i < |s| && s[i] == Filter(s, p)[0] && p(s[i]) &&
        forall j :: 0 <= j < i ==> !p(s[j])
  {
    if s != [] {
      FilterHead(s[1..], p);
      if !p(s[0]) {
        assert Filter(s, p) == Filter(s[1..], p);
        if |Filter(s, p)| > 0 {
          var i :| 0 <= i < |s[1..]| && s[1..][i] == Filter(s, p)[0] && p(s[1..][i]) &&
            forall j :: 0 <= j < i ==> !p(s[1..][j]);
          assert s[i + 1] == Filter(s, p)[0];
          assert forall j :: 0 <= j < i + 1 ==> !p(s[j]) by {
            forall j | 0 <= j < i + 1 ensures !p(s[j]) {
              if j > 0 { assert s[j] == s[1..][j - 1]; }
            }
          }
        } else {
          forall i | 0 <= i < |s| ensures !p(s[i]) {
            if i > 0 { assert s[i] == s[1..][i - 1]; }
          }
        }
      } else {
        assert Filter(s, p)[0] == s[0];
      }
    }
  }

  /** `Array.prototype.map`. */
  function MapSeq<T, U>(s: seq<T>, f: T -> U): (r: seq<U>)
    ensures |r| == |s| && forall k :: 0 <= k < |s| ==> r[k] == f(s[k])
  {
    if s == [] then [] else [f(s[0])] + MapSeq(s[1..], f)
  }

  /** Mapping distributes over concatenation. */
  lemma {:induction false} MapSeqConcat<T, U>(a: seq<T>, b: seq<T>, f: T -> U)
    ensures MapSeq(a + b, f) == MapSeq(a, f) + MapSeq(b, f)
  {
    if a == [] {
      assert a + b == b;
    } else {
      assert (a + b)[0] == a[0] && (a + b)[1..] == a[1..] + b;
      MapSeqConcat(a[1..], b, f);
    }
  }

  /** A sequence is its prefix followed by the rest. */
  lemma TakeDrop<T>(s: seq<T>, i: nat)
    requires i <= |s|
    ensures s[..i] + s[i..] == s
  {
  }

  /** `s.splice(i, 1)`: `s` without its element at `i`. */
  function RemoveAt<T>(s: seq<T>, i: nat): (r: seq<T>)
    requires i < |s|
    ensures |r| == |s| - 1
    ensures multiset(r) + multiset{s[i]} == multiset(s)
    ensures forall k :: 0 <= k < i ==> r[k] == s[k]
    ensures forall k :: i <= k < |r| ==> r[k] == s[k + 1]
  {
    assert s == s[..i] + [s[i]] + s[i + 1..];
    s[..i] + s[i + 1..]
  }

  /** `s.splice(i, 0, x)`: `s` with `x` inserted so that it sits at index `i`. */
  function InsertAt<T>(s: seq<T>, i: nat, x: T): (r: seq<T>)
    requires i <= |s|
    ensures |r| == |s| + 1 && r[i] == x
    ensures multiset(r) == multiset(s) + multiset{x}
    ensures forall k :: 0 <= k < i ==> r[k] == s[k]
    ensures forall k :: i < k < |r| ==> r[k] == s[k - 1]
  {
    assert s == s[..i] + s[i..];
    s[..i] + [x] + s[i..]
  }

  /** Removing what was just inserted gives the sequence back. */
  lemma RemoveInsert<T>(s: seq<T>, i: nat, x: T)
    requires i <= |s|
    ensures RemoveAt(InsertAt(s, i, x), i) == s
  {
    assert RemoveAt(InsertAt(s, i, x), i) == s[..i] + s[i..];
    assert s[..i] + s[i..] == s;
  }

  /** Re-inserting an element where it was removed gives the sequence back. */
  lemma InsertRemove<T>(s: seq<T>, i: nat)
    requires i < |s|
    ensures InsertAt(RemoveAt(s, i), i, s[i]) == s
  {
    var r := RemoveAt(s, i);
    assert r[..i] == s[..i] && r[i..] == s[i + 1..];
    assert s == s[..i] + [s[i]] + s[i + 1..];
  }

  /**
   * A move (remove at `i`, insert the removed element at `j`) is a
   * permutation that puts `s[i]` at `j` and keeps the others in order.
   */
  lemma Move<T>(s: seq<T>, i: nat, j: nat)
    requires i < |s| && j < |s|
    ensures var r := InsertAt(RemoveAt(s, i), j, s[i]);
      |r| == |s| && r[j] == s[i] && multiset(r) == multiset(s) &&
      RemoveAt(r, j) == RemoveAt(s, i)
  {
    RemoveInsert(RemoveAt(s, i), j, s[i]);
  }

  /** `Array.prototype.join`: the strings of `xs` with `sep` between neighbours. */
  function Join(xs: seq<string>, sep: string): string
  {
    if |xs| == 0 then ""
    else if |xs| == 1 then xs[0]
    else Join(xs[..|xs| - 1], sep) + sep + xs[|xs| - 1]
  }

  /** Joining two non-empty lists puts exactly one separator between the halves. */
  lemma {:induction false} JoinConcat(a: seq<string>, b: seq<string>, sep: string)
    requires |a| > 0 && |b| > 0
    ensures Join(a + b, sep) == Join(a, sep) + sep + Join(b, sep)
    decreases |b|
  {
    var n := |a + b|;
    assert (a + b)[n - 1] == b[|b| - 1];
    if |b| == 1 {
      assert (a + b)[..n - 1] == a;
    } else {
      assert (a + b)[..n - 1] == a + b[..|b| - 1];
      JoinConcat(a, b[..|b| - 1], sep);
    }
  }
}

=== FILE: SummaryPage.dfy ===
/**
 * The single-file project summary page of the wizard: the land-use names,
 * the measures and specifications listed as effective, the loading state
 * and the earned-versus-target message.
 */
module SummaryPage {
  import opened Js
  import opened Seqs
  import opened Rules

  /** A land use: a used rule on calculation panel 5 with a truthy value. */
  predicate IsLandUse(r: Rule)
  {
    r.used && Truthy(r.value) && r.calculationPanelId == 5
  }

  function RuleName(r: Rule): string
  {
    r.name
  }

  /** The names of the land-use rules, in list order. */
  function LandUseNames(rules: seq<Rule>): (names: seq<string>)
    ensures |names| == |Filter(rules, IsLandUse)|
    ensures forall k :: 0 <= k < |names| ==> names[k] == Filter(rules, IsLandUse)[k].name
    ensures forall n :: n in names <==> exists r :: r in rules && IsLandUse(r) && r.name == n
  {
    var uses := Filter(rules, IsLandUse);
    var names := MapSeq(uses, RuleName);
    assert forall n :: n in names <==> exists r :: r in rules && IsLandUse(r) && r.name == n by {
      forall n ensures n in names <==> exists r :: r in rules && IsLandUse(r) && r.name == n {
        if n in names {
          var k :| 0 <= k < |names| && names[k] == n;
          assert uses[k] in uses && names[k] == uses[k].name;
          assert uses[k] in rules && IsLandUse(uses[k]);
        }
        if exists r :: r in rules && IsLandUse(r) && r.name == n {
          var r :| r in rules && IsLandUse(r) && r.name == n;
          assert r in uses;
          var k :| 0 <= k < |uses| && uses[k] == r;
          assert names[k] == uses[k].name == n;
        }
      }
    }
    names
  }

  /**
   * `landUses`: the land-use names joined by ", ". Without a land use it is
   * empty, and a single land use is just its name.
   */
  function LandUses(rules: seq<Rule>): (text: string)
    ensures (forall r :: r in rules ==> !IsLandUse(r)) ==> text == ""
    ensures |Filter(rules, IsLandUse)| == 1 ==> text == Filter(rules, IsLandUse)[0].name
  {
    var names := LandUseNames(rules);
    assert |names| > 0 ==> names[0] in names;
    Join(LandUseNames(rules), ", ")
  }

  /**
   * Land uses keep list order: when both halves of a rule list hold a land
   * use, the joined text of the whole is the joined text of the halves with
   * one ", " between them.
   */
  lemma LandUsesConcat(a: seq<Rule>, b: seq<Rule>)
    requires exists r :: r in a && IsLandUse(r)
    requires exists r :: r in b && IsLandUse(r)
    ensures LandUses(a + b) == LandUses(a) + ", " + LandUses(b)
  {
    FilterConcat(a, b, IsLandUse);
    MapSeqConcat(Filter(a, IsLandUse), Filter(b, IsLandUse), RuleName);
    var r :| r in a && IsLandUse(r);
    var s :| s in b && IsLandUse(s);
    assert r in Filter(a, IsLandUse) && s in Filter(b, IsLandUse);
    JoinConcat(LandUseNames(a), LandUseNames(b), ", ");
  }

  /**
   * The land-use test has no category check and no "0" exclusion: a used
   * panel-5 rule whose value is the string "0" is listed, although it is not
   * effective when its calcValue is blank.
   */
  lemma LandUseKeepsZeroString(r: Rule)
    requires r.used && r.calculationPanelId == 5 && r.value == JStr("0") && Blank(r.calcValue)
    ensures LandUses([r]) == r.name
    ensures !IsEffective(r)
  {
    assert Truthy(r.value) && IsLandUse(r);
    assert Filter([r], IsLandUse) == [r];
    assert MapSeq([r], RuleName) == [r.name];
  }

  /** A measure listed on the summary: used, displayed, not on panel 10 and effective. */
  predicate IsSummaryMeasure(r: Rule)
  {
    r.category == "measure" && r.used && r.display && r.calculationPanelId != 10 && IsEffective(r)
  }

  /** `measureRules`: the listed measures, in list order and with their multiplicity. */
  function MeasureRules(rules: seq<Rule>): (measures: seq<Rule>)
    ensures forall r :: r in measures <==>
      r in rules && r.category == "measure" && r.used && r.display &&
      r.calculationPanelId != 10 && IsEffective(r)
    ensures forall r :: r in rules && IsSummaryMeasure(r) ==> multiset(measures)[r] == multiset(rules)[r]
  {
    FilterMultiset(rules, IsSummaryMeasure);
    Filter(rules, IsSummaryMeasure)
  }

  /** The listed measures keep list order: the list distributes over concatenation. */
  lemma MeasureRulesKeepOrder(a: seq<Rule>, b: seq<Rule>)
    ensures MeasureRules(a + b) == MeasureRules(a) + MeasureRules(b)
  {
    FilterConcat(a, b, IsSummaryMeasure);
  }

  /**
   * A specification listed on this page: an input that is used, displayed,
   * on neither panel 5 (land uses) nor panel 31, and effective.
   */
  predicate IsSummarySpecification(r: Rule)
  {
    r.category == "input" && r.used && r.display &&
    r.calculationPanelId != 5 && r.calculationPanelId != 31 && IsEffective(r)
  }

  /** `specificationRules`: the listed specifications, in list order. */
  function SpecificationRules(rules: seq<Rule>): (specs: seq<Rule>)
    ensures forall r :: r in specs <==>
      r in rules && r.category == "input" && r.used && r.display &&
      r.calculationPanelId != 5 && r.calculationPanelId != 31 && IsEffective(r)
    ensures forall r :: r in rules && IsSummarySpecification(r) ==> multiset(specs)[r] == multiset(rules)[r]
  {
    FilterMultiset(rules, IsSummarySpecification);
    Filter(rules, IsSummarySpecification)
  }

  /** The listed specifications keep list order: the list distributes over concatenation. */
  lemma SpecificationRulesKeepOrder(a: seq<Rule>, b: seq<Rule>)
    ensures SpecificationRules(a + b) == SpecificationRules(a) + SpecificationRules(b)
  {
    FilterConcat(a, b, IsSummarySpecification);
  }

  /**
   * `loading`: none of the looked-up rules exists and the rule list is
   * empty. Since every lookup misses on an empty list, this holds exactly
   * when the list is empty.
   */
  function Loading(rules: seq<Rule>): (loading: bool)
    ensures loading <==> |rules| == 0
  {
    GetRule(rules, ProjectLevel).None? &&
    GetRule(rules, CalcParkRatio).None? &&
    GetRule(rules, TargetPointsPark).None? &&
    GetRule(rules, PtsEarned).None? &&
    |rules| == 0 &&
    GetRule(rules, ParkRequirement).None? &&
    GetRule(rules, ParkSpaces).None?
  }

  /**
   * Whether the "earned points successfully meet the target points" message
   * is shown. The comparison sits outside the null checks of the two
   * panels, so both rules must exist.
   */
  function SuccessMessageShown(rules: seq<Rule>): (shown: bool)
    requires GetRule(rules, PtsEarned).Some? && GetRule(rules, TargetPointsPark).Some?
    ensures shown ==> ToNumber(GetRule(rules, PtsEarned).value.value).Some?
    ensures shown ==> ToNumber(GetRule(rules, TargetPointsPark).value.value).Some?
    ensures GetRule(rules, PtsEarned).value.value == JUndefined ==> !shown
  {
    PointsMeetTarget(GetRule(rules, PtsEarned).value, GetRule(rules, TargetPointsPark).value)
  }

  /**
   * When both values coerce to numbers (numbers, null, booleans and digit
   * strings do), the message is shown exactly when the rounded earned
   * points reach the rounded target.
   */
  lemma SuccessMessageIffRoundedReach(rules: seq<Rule>)
    requires GetRule(rules, PtsEarned).Some? && GetRule(rules, TargetPointsPark).Some?
    requires ToNumber(GetRule(rules, PtsEarned).value.value).Some?
    requires ToNumber(GetRule(rules, TargetPointsPark).value.value).Some?
    ensures SuccessMessageShown(rules) <==>
      JsRound(ToNumber(GetRule(rules, PtsEarned).value.value).value) >=
      JsRound(ToNumber(GetRule(rules, TargetPointsPark).value.value).value)
  {
  }
}

=== FILE: SummaryPanels.dfy ===
/**
 * The summary screen built from panel components: the listed measures and
 * specifications, the loading state, whether the target points are reached
 * (and so which border the earned-points panel gets), and when the
 * user-defined strategy details, the project description and the rule
 * lists are rendered.
 *
 * It applies the same measure test as the single-file summary page but a
 * weaker specification test: only panel 31 is excluded, so a panel-5 input
 * shows up here and not there.
 */
module SummaryPanels {
  import opened Js
  import opened Seqs
  import opened Rules
  import SummaryPage

  /** A measure listed on the summary: used, displayed, not on panel 10 and effective. */
  predicate IsSummaryMeasure(r: Rule)
  {
    r.category == "measure" && r.used && r.display && r.calculationPanelId != 10 && IsEffective(r)
  }

  /** `measureRules`: the listed measures, in list order and with their multiplicity. */
  function MeasureRules(rules: seq<Rule>): (measures: seq<Rule>)
    ensures forall r :: r in measures <==>
      r in rules && r.category == "measure" && r.used && r.display &&
      r.calculationPanelId != 10 && IsEffective(r)
    ensures forall r :: r in rules && IsSummaryMeasure(r) ==> multiset(measures)[r] == multiset(rules)[r]
  {
    FilterMultiset(rules, IsSummaryMeasure);
    Filter(rules, IsSummaryMeasure)
  }

  /** Both summaries list the same measures in the same order. */
  lemma MeasureRulesAgree(rules: seq<Rule>)
    ensures MeasureRules(rules) == SummaryPage.MeasureRules(rules)
  {
    FilterExt(rules, IsSummaryMeasure, SummaryPage.IsSummaryMeasure);
  }

  /** A specification listed here: an input that is used, displayed, not on panel 31 and effective. */
  predicate IsSummarySpecification(r: Rule)
  {
    r.category == "input" && r.used && r.display && r.calculationPanelId != 31 && IsEffective(r)
  }

  /** `specificationRules`: the listed specifications, in list order. */
  function SpecificationRules(rules: seq<Rule>): (specs: seq<Rule>)
    ensures forall r :: r in specs <==>
      r in rules && r.category == "input" && r.used && r.display &&
      r.calculationPanelId != 31 && IsEffective(r)
    ensures forall r :: r in rules && IsSummarySpecification(r) ==> multiset(specs)[r] == multiset(rules)[r]
  {
    FilterMultiset(rules, IsSummarySpecification);
    Filter(rules, IsSummarySpecification)
  }

  /** The listed specifications keep list order: the list distributes over concatenation. */
  lemma SpecificationRulesKeepOrder(a: seq<Rule>, b: seq<Rule>)
    ensures SpecificationRules(a + b) == SpecificationRules(a) + SpecificationRules(b)
  {
    FilterConcat(a, b, IsSummarySpecification);
  }

  predicate NotLandUsePanel(r: Rule)
  {
    r.calculationPanelId != 5
  }

  /**
   * The two summaries disagree on panel 5 only: the single-file page's
   * specifications are exactly this screen's specifications without the
   * panel-5 rules, in the same order.
   */
  lemma SpecificationRulesDifferOnPanel5(rules: seq<Rule>)
    ensures SummaryPage.SpecificationRules(rules) == Filter(SpecificationRules(rules), NotLandUsePanel)
  {
    FilterFilter(rules, IsSummarySpecification, NotLandUsePanel, SummaryPage.IsSummarySpecification);
  }

  /** A used, displayed, effective panel-5 input is listed here and not on the single-file page. */
  lemma Panel5InputListedOnlyHere(r: Rule)
    requires r.category == "input" && r.used && r.display && r.calculationPanelId == 5 && IsEffective(r)
    ensures SpecificationRules([r]) == [r]
    ensures SummaryPage.SpecificationRules([r]) == []
  {
    assert IsSummarySpecification(r);
    assert Filter([r], IsSummarySpecification) == [r];
    assert !SummaryPage.IsSummarySpecification(r);
    assert Filter([r], SummaryPage.IsSummarySpecification) == [];
  }

  /** `loading`: the rule list is empty (every lookup then misses). */
  function Loading(rules: seq<Rule>): (loading: bool)
    ensures loading <==> |rules| == 0
  {
    GetRule(rules, ProjectLevel).None? &&
    GetRule(rules, CalcParkRatio).None? &&
    GetRule(rules, TargetPointsPark).None? &&
    GetRule(rules, PtsEarned).None? &&
    |rules| == 0 &&
    GetRule(rules, ParkRequirement).None? &&
    GetRule(rules, ParkSpaces).None?
  }

  /**
   * `rulesNotEmpty`: the measure and specification lists are rendered.
   * They are rendered exactly when the summary is not loading.
   */
  predicate RuleListsShown(rules: seq<Rule>)
    ensures RuleListsShown(rules) <==> !Loading(rules)
  {
    |rules| > 0
  }

  /**
   * `targetPointsReached`: false when there is no PTS_EARNED rule;
   * otherwise the rounded earned points compared with the rounded target.
   * The target rule is read without a null check once the earned rule
   * exists.
   */
  function TargetPointsReached(rules: seq<Rule>): (reached: bool)
    requires GetRule(rules, PtsEarned).Some? ==> GetRule(rules, TargetPointsPark).Some?
    ensures reached ==> exists r :: r in rules && r.code == PtsEarned
    ensures reached ==> exists t :: t in rules && t.code == TargetPointsPark
    ensures (GetRule(rules, PtsEarned).Some? &&
             ToNumber(GetRule(rules, PtsEarned).value.value).Some? &&
             ToNumber(GetRule(rules, TargetPointsPark).value.value).Some?) ==>
      (reached <==> JsRound(ToNumber(GetRule(rules, PtsEarned).value.value).value) >=
                    JsRound(ToNumber(GetRule(rules, TargetPointsPark).value.value).value))
  {
    var earned := GetRule(rules, PtsEarned);
    if earned.None? then false
    else PointsMeetTarget(earned.value, GetRule(rules, TargetPointsPark).value)
  }

  /** Where both rules exist, both summaries reach the same verdict. */
  lemma TargetVerdictsAgree(rules: seq<Rule>)
    requires GetRule(rules, PtsEarned).Some? && GetRule(rules, TargetPointsPark).Some?
    ensures TargetPointsReached(rules) == SummaryPage.SuccessMessageShown(rules)
  {
  }

  datatype Border = SuccessBorder | FailureBorder

  /** The earned-points panel's border: the success border exactly when the target is reached. */
  function EarnedPointsBorder(rules: seq<Rule>): (border: Border)
    requires GetRule(rules, PtsEarned).Some? ==> GetRule(rules, TargetPointsPark).Some?
    ensures border == SuccessBorder <==> TargetPointsReached(rules)
    ensures border == FailureBorder <==> !TargetPointsReached(rules)
  {
    if TargetPointsReached(rules) then SuccessBorder else FailureBorder
  }

  /**
   * The user-defined strategy details are rendered when the first
   * STRATEGY_APPLICANT rule has a truthy calcValue and a non-empty comment;
   * a later rule with that code is never consulted. The rule is read
   * without a null check, and so is its comment once the calcValue is
   * truthy.
   */
  function StrategyDetailsShown(rules: seq<Rule>): (shown: bool)
    requires GetRule(rules, StrategyApplicant).Some?
    requires Truthy(GetRule(rules, StrategyApplicant).value.calcValue) ==>
      GetRule(rules, StrategyApplicant).value.comment.Some?
    ensures shown <==>
      exists i :: IsFirst(rules, StrategyApplicant, i) && Truthy(rules[i].calcValue) &&
        rules[i].comment.Some? && |rules[i].comment.value| > 0
  {
    GetRuleFirst(rules, StrategyApplicant);
    var strategy := GetRule(rules, StrategyApplicant).value;
    Truthy(strategy.calcValue) && |strategy.comment.value| > 0
  }

  /**
   * The project description block is rendered when the PROJECT_DESCRIPTION
   * rule exists and its value is a non-empty string; a number or boolean
   * has no length and is not rendered. A null or undefined value would be
   * read without a check, so it is excluded.
   */
  function DescriptionShown(rules: seq<Rule>): (shown: bool)
    requires GetRule(rules, ProjectDescription).Some? ==>
      GetRule(rules, ProjectDescription).value.value !in {JNull, JUndefined}
    ensures shown <==>
      exists i :: 0 <= i < |rules| && rules[i].code == ProjectDescription &&
        (forall j :: 0 <= j < i ==> rules[j].code != ProjectDescription) &&
        rules[i].value.JStr? && |rules[i].value.s| > 0
  {
    var description := GetRule(rules, ProjectDescription);
    description.Some? && description.value.value.JStr? && |description.value.value.s| > 0
  }
}

=== FILE: Wizard.dfy ===
/**
 * The decisions of the TDM calculation wizard: which route the ownership
 * guard redirects to, which page the Next and Previous buttons lead to
 * (skipping the packages page when no package applies), when Next is
 * disabled, when forward navigation is refused with a message, the step
 * number shown in the progress display, and which rules are results.
 *
 * The routing collaborator is an output sink: every decision returns the
 * route it would push instead of pushing it.
 */
module Wizard {
  import opened Js
  import opened Seqs
  import opened Rules

  /**
   * The page filters handed to the wizard by its parent (the module that
   * defines them is not part of this model).
   */
  datatype RuleFilters = RuleFilters(
    projectDescription: Rule -> bool,
    specification: Rule -> bool,
    strategy: Rule -> bool)

  /** The signed-in account; an id of 0 stands for a missing or null id. */
  datatype Account = Account(id: int, isAdmin: bool)

  /** A route parameter as the router hands it over: missing, or the text of its URL segment. */
  datatype Param = Missing | Text(s: string)

  /**
   * `Number(param)` on a route parameter: a missing parameter is NaN
   * (`None`), the empty text is 0, and a text of decimal digits is the
   * number it writes, leading zeros and all; any other text is NaN.
   */
  function ParamNumber(p: Param): (n: Option<int>)
    ensures p.Missing? ==> n.None?
    ensures p.Text? ==> (n.Some? <==> ToNumber(JStr(p.s)).Some?)
    ensures p.Text? && n.Some? ==> n.value >= 0 && ToNumber(JStr(p.s)) == Some(n.value as real)
  {
    match p
    case Missing => None
    case Text(s) => if forall i :: 0 <= i < |s| ==> IsDigit(s[i]) then Some(DigitsValue(s)) else None
  }

  /**
   * The project-id segment of a pushed route: the number the ownership
   * guard formats, or the raw parameter text that page navigation copies.
   */
  datatype Segment = IdNumber(n: int) | IdText(s: string)

  /**
   * A route the wizard pushes: `/calculation/<page>[/<projectId>]` or `/login`.
   * A page of `None` is the NaN that `Number(undefined) - 1` produces.
   */
  datatype Route = Calculation(page: Option<int>, projectId: Option<Segment>) | Login

  /** What a click on a navigation button does. */
  datatype NavOutcome = Push(route: Route) | Refused(toast: string)

  const RequiredFieldsToast := "Please fill out all required fields"

  /** The summary page, shown read-only to viewers who do not own the project. */
  const SummaryPage := 6

  /**
   * `Number(match.params.page || 1)`: a missing or empty page parameter is
   * page 1; any other text is coerced, so a non-numeric page is NaN.
   */
  function CurrentPage(pageParam: Param): (page: Option<int>)
    ensures pageParam.Missing? || pageParam == Text("") ==> page == Some(1)
    ensures pageParam.Text? && pageParam.s != "" ==> page == ParamNumber(pageParam)
    ensures page.None? <==> pageParam.Text? && exists i :: 0 <= i < |pageParam.s| && !IsDigit(pageParam.s[i])
  {
    if pageParam.Missing? || pageParam.s == "" then Some(1) else ParamNumber(pageParam)
  }

  /** `!projectId` is false: the id parameter coerces to a number other than 0 and NaN. */
  predicate HasProjectId(projectId: Param)
  {
    ParamNumber(projectId).Some? && ParamNumber(projectId).value != 0
  }

  /** `account && account.id` is truthy. */
  predicate LoggedIn(account: Option<Account>)
  {
    account.Some? && account.value.id != 0
  }

  /**
   * The redirect effect. Without a project id the wizard starts a new
   * project on page 1; for an existing project a visitor who is not signed
   * in is sent to the login page; once the login id is known, a signed-in
   * viewer who is neither an administrator nor the owner is sent to the
   * project's summary page, under the coerced id. Otherwise the wizard
   * stays where it is.
   */
  function Redirect(projectId: Param, account: Option<Account>, loginId: int): (r: Option<Route>)
    ensures r == Some(Calculation(Some(1), None)) <==> !HasProjectId(projectId)
    ensures r == Some(Login) <==> HasProjectId(projectId) && !LoggedIn(account)
    ensures r.Some? && r.value.Calculation? && r.value.page == Some(SummaryPage) <==>
      HasProjectId(projectId) && LoggedIn(account) && loginId != 0 &&
      !(account.value.isAdmin || account.value.id == loginId)
    ensures r.Some? && r.value.Calculation? && r.value.page == Some(SummaryPage) ==>
      r.value.projectId == Some(IdNumber(ParamNumber(projectId).value))
    ensures r.None? <==>
      HasProjectId(projectId) && LoggedIn(account) &&
      (loginId == 0 || account.value.isAdmin || account.value.id == loginId)
  {
    if !HasProjectId(projectId) then Some(Calculation(Some(1), None))
    else if !LoggedIn(account) then Some(Login)
    else if loginId != 0 && !(account.value.isAdmin || account.value.id == loginId) then
      Some(Calculation(Some(SummaryPage), Some(IdNumber(ParamNumber(projectId).value))))
    else None
  }

  /**
   * The guard never leaves a signed-in non-owner without privilege on an
   * existing project's wizard once the login id is known: either it
   * redirects, or the viewer owns the project or is an administrator.
   */
  lemma RedirectProtectsForeignProjects(projectId: Param, account: Option<Account>, loginId: int)
    requires loginId != 0
    requires Redirect(projectId, account, loginId).None?
    ensures account.Some? && (account.value.isAdmin || account.value.id == loginId)
  {
  }

  /** Next from `page`: page 3 jumps to 5 when neither package applies. */
  function NextPage(page: int, allowResidentialPackage: bool, allowEmploymentPackage: bool): (next: int)
    ensures page != 3 ==> next == page + 1
    ensures page == 3 ==> next == (if allowResidentialPackage || allowEmploymentPackage then 4 else 5)
  {
    if page == 3 && !allowResidentialPackage && !allowEmploymentPackage then 5 else page + 1
  }

  /** Previous from `page`: page 5 jumps back to 3 when neither package applies. */
  function PrevPage(page: int, allowResidentialPackage: bool, allowEmploymentPackage: bool): (prev: int)
    ensures page != 5 ==> prev == page - 1
    ensures page == 5 ==> prev == (if allowResidentialPackage || allowEmploymentPackage then 4 else 3)
  {
    if page == 5 && !allowResidentialPackage && !allowEmploymentPackage then 3 else page - 1
  }

  /** When no package applies, neither button ever lands on the packages page. */
  lemma PackagesPageSkipped(page: int)
    ensures NextPage(page, false, false) != 4
    ensures PrevPage(page, false, false) != 4
  {
  }

  /**
   * Previous undoes Next, and Next undoes Previous, on every page that can
   * be reached: the only exception is the packages page when no package
   * applies, which the wizard never shows.
   */
  lemma NextPrevInverse(page: int, allowResidentialPackage: bool, allowEmploymentPackage: bool)
    requires page != 4 || allowResidentialPackage || allowEmploymentPackage
    ensures PrevPage(NextPage(page, allowResidentialPackage, allowEmploymentPackage),
                     allowResidentialPackage, allowEmploymentPackage) == page
    ensures NextPage(PrevPage(page, allowResidentialPackage, allowEmploymentPackage),
                     allowResidentialPackage, allowEmploymentPackage) == page
  {
  }

  /**
   * `setDisabledForNextNavButton`: Next is disabled on page 1 while a
   * project-description rule has errors, on page 2 while a specification
   * rule has errors, on page 5 while a strategy rule has errors, and always
   * on the summary page 6. Any validationErrors array, even an empty one,
   * counts as errors. A NaN page matches none of these.
   */
  function NextDisabled(pageParam: Param, rules: seq<Rule>, filters: RuleFilters): (disabled: bool)
    ensures disabled <==>
      (CurrentPage(pageParam) == Some(1) && exists r :: r in rules && filters.projectDescription(r) && HasErrors(r)) ||
      (CurrentPage(pageParam) == Some(2) && exists r :: r in rules && filters.specification(r) && HasErrors(r)) ||
      (CurrentPage(pageParam) == Some(5) && exists r :: r in rules && filters.strategy(r) && HasErrors(r)) ||
      CurrentPage(pageParam) == Some(SummaryPage)
  {
    FilteredHasErrors(rules, filters.projectDescription);
    FilteredHasErrors(rules, filters.specification);
    FilteredHasErrors(rules, filters.strategy);
    var page := CurrentPage(pageParam);
    (page == Some(1) && SomeHasErrors(Filter(rules, filters.projectDescription))) ||
    (page == Some(2) && SomeHasErrors(Filter(rules, filters.specification))) ||
    (page == Some(5) && SomeHasErrors(Filter(rules, filters.strategy))) ||
    page == Some(SummaryPage)
  }

  /** `isLevel0`: the project level is exactly 0. */
  predicate IsLevel0(projectLevel: Option<int>)
  {
    projectLevel == Some(0)
  }

  /**
   * `pageNumber`, the step shown by the progress display: a level-0
   * project shows step 5 on page 3; otherwise pages up to 3 keep their
   * number and later pages are numbered one lower. A NaN page shows NaN.
   */
  function PageNumber(projectLevel: Option<int>, pageParam: Param): (step: Option<int>)
    ensures step.None? <==> CurrentPage(pageParam).None?
    ensures IsLevel0(projectLevel) && CurrentPage(pageParam) == Some(3) ==> step == Some(5)
    ensures CurrentPage(pageParam).Some? && !(IsLevel0(projectLevel) && CurrentPage(pageParam) == Some(3)) ==>
      step.value <= CurrentPage(pageParam).value && CurrentPage(pageParam).value - 1 <= step.value
    ensures CurrentPage(pageParam).Some? && !(IsLevel0(projectLevel) && CurrentPage(pageParam) == Some(3)) ==>
      (step == CurrentPage(pageParam) <==> CurrentPage(pageParam).value <= 3)
  {
    var page := CurrentPage(pageParam);
    if page.None? then None
    else if IsLevel0(projectLevel) && page.value == 3 then Some(5)
    else if page.value <= 3 then page
    else Some(page.value - 1)
  }

  /** Apart from the level-0 case, later pages never show an earlier step. */
  lemma PageNumberMonotone(projectLevel: Option<int>, p: Param, q: Param)
    requires CurrentPage(p).Some? && CurrentPage(q).Some?
    requires CurrentPage(p).value <= CurrentPage(q).value
    requires !(IsLevel0(projectLevel) && (CurrentPage(p) == Some(3) || CurrentPage(q) == Some(3)))
    ensures PageNumber(projectLevel, p).value <= PageNumber(projectLevel, q).value
  {
  }

  /** The six wizard pages show steps 1 to 5. */
  lemma PageNumberRange(projectLevel: Option<int>, pageParam: Param)
    requires CurrentPage(pageParam).Some? && 1 <= CurrentPage(pageParam).value <= SummaryPage
    ensures 1 <= PageNumber(projectLevel, pageParam).value <= 5
  {
  }

  /** The summary page, page "6", shows the last step, 5. */
  lemma SummaryPageShowsLastStep(projectLevel: Option<int>)
    ensures PageNumber(projectLevel, Text("6")) == Some(5)
  {
    assert DigitsValue("6") == 6 by { assert "6"[..0] == ""; }
  }

  /**
   * `handleValidate`: only page 1 has a validation, which fails when a
   * project-description rule has errors; every other page passes. The
   * validations are looked up by the raw parameter text, so only the text
   * "1" is validated.
   */
  function Validate(pageParam: Param, rules: seq<Rule>, filters: RuleFilters): (ok: bool)
    ensures !ok <==>
      (pageParam == Text("1") && exists r :: r in rules && filters.projectDescription(r) && HasErrors(r))
  {
    FilteredHasErrors(rules, filters.projectDescription);
    !(pageParam == Text("1") && SomeHasErrors(Filter(rules, filters.projectDescription)))
  }

  /** `projectIdParam`: the raw project-id text, or nothing when it is missing or empty. */
  function IdSegment(projectId: Param): (segment: Option<Segment>)
    ensures segment.Some? <==> projectId.Text? && Truthy(JStr(projectId.s))
    ensures segment.Some? ==> segment.value == IdText(projectId.s)
  {
    if projectId.Text? && projectId.s != "" then Some(IdText(projectId.s)) else None
  }

  /** `Number("1")` and `Number("01")` are both 1. */
  lemma PageOneTexts()
    ensures ParamNumber(Text("1")) == Some(1)
    ensures ParamNumber(Text("01")) == Some(1)
  {
    assert "1"[..0] == "";
    assert "01"[..1] == "0" && "0"[..0] == "";
  }

  /**
   * `onPageChange(pageNo)`. The coerced raw page parameter is compared
   * with the requested page: a larger request is a forward move, which is
   * refused with one message when validation fails and otherwise goes to
   * the next page; anything else (an equal request, or a NaN page) goes to
   * the previous page, which is NaN for a NaN page. The raw project-id text
   * is appended to the route only when it is not empty.
   */
  function OnPageChange(
    pageParam: Param, projectIdParam: Param, pageNo: int,
    allowResidentialPackage: bool, allowEmploymentPackage: bool,
    rules: seq<Rule>, filters: RuleFilters): (r: NavOutcome)
    ensures r.Refused? <==>
      (pageParam == Text("1") && pageNo > 1 &&
       exists x :: x in rules && filters.projectDescription(x) && HasErrors(x))
    ensures r.Refused? ==> r.toast == RequiredFieldsToast
    ensures r.Push? ==> r.route.Calculation? && r.route.projectId == IdSegment(projectIdParam)
    ensures r.Push? && ParamNumber(pageParam).Some? && pageNo > ParamNumber(pageParam).value ==>
      r.route.page == Some(NextPage(ParamNumber(pageParam).value, allowResidentialPackage, allowEmploymentPackage))
    ensures r.Push? && ParamNumber(pageParam).Some? && pageNo <= ParamNumber(pageParam).value ==>
      r.route.page == Some(PrevPage(ParamNumber(pageParam).value, allowResidentialPackage, allowEmploymentPackage))
    ensures ParamNumber(pageParam).None? ==> r.Push? && r.route.page.None?
  {
    PageOneTexts();
    var page := ParamNumber(pageParam);
    if page.Some? && pageNo > page.value then
      if Validate(pageParam, rules, filters) then
        Push(Calculation(Some(NextPage(page.value, allowResidentialPackage, allowEmploymentPackage)), IdSegment(projectIdParam)))
      else
        Refused(RequiredFieldsToast)
    else
      var prev := if page.Some?
        then Some(PrevPage(page.value, allowResidentialPackage, allowEmploymentPackage))
        else None;
      Push(Calculation(prev, IdSegment(projectIdParam)))
  }

  /** Forward from page 3 with no applicable package lands on page 5. */
  lemma ForwardSkipsPackages(projectIdParam: Param, pageNo: int, rules: seq<Rule>, filters: RuleFilters)
    requires pageNo > 3
    ensures OnPageChange(Text("3"), projectIdParam, pageNo, false, false, rules, filters)
      == Push(Calculation(Some(5), IdSegment(projectIdParam)))
  {
    assert ParamNumber(Text("3")) == Some(3) by { assert "3"[..0] == ""; }
  }

  /** Back from page 5 with no applicable package lands on page 3. */
  lemma BackwardSkipsPackages(projectIdParam: Param, pageNo: int, rules: seq<Rule>, filters: RuleFilters)
    requires pageNo <= 5
    ensures OnPageChange(Text("5"), projectIdParam, pageNo, false, false, rules, filters)
      == Push(Calculation(Some(3), IdSegment(projectIdParam)))
  {
    assert ParamNumber(Text("5")) == Some(5) by { assert "5"[..0] == ""; }
  }

  /**
   * Without a page parameter the wizard shows page 1, but a page change
   * pushes the NaN page, whatever page was requested.
   */
  lemma MissingPageNavigatesToNaN(
    projectIdParam: Param, pageNo: int,
    allowResidentialPackage: bool, allowEmploymentPackage: bool,
    rules: seq<Rule>, filters: RuleFilters)
    ensures CurrentPage(Missing) == Some(1)
    ensures OnPageChange(Missing, projectIdParam, pageNo, allowResidentialPackage, allowEmploymentPackage, rules, filters)
      == Push(Calculation(None, IdSegment(projectIdParam)))
  {
  }

  /** The requested page only decides the direction, never the target. */
  lemma RequestedPageOnlyDecidesDirection(
    pageParam: Param, projectIdParam: Param, pageNo: int, pageNo': int,
    allowResidentialPackage: bool, allowEmploymentPackage: bool,
    rules: seq<Rule>, filters: RuleFilters)
    requires ParamNumber(pageParam).Some?
    requires (pageNo > ParamNumber(pageParam).value) == (pageNo' > ParamNumber(pageParam).value)
    ensures OnPageChange(pageParam, projectIdParam, pageNo, allowResidentialPackage, allowEmploymentPackage, rules, filters)
         == OnPageChange(pageParam, projectIdParam, pageNo', allowResidentialPackage, allowEmploymentPackage, rules, filters)
  {
  }

  /**
   * On page "1" the disabled Next button and the refusal of forward
   * navigation agree: a forward move is refused exactly when Next is
   * disabled.
   */
  lemma Page1RefusalMatchesDisabledNext(
    projectIdParam: Param, pageNo: int,
    allowResidentialPackage: bool, allowEmploymentPackage: bool,
    rules: seq<Rule>, filters: RuleFilters)
    requires pageNo > 1
    ensures OnPageChange(Text("1"), projectIdParam, pageNo, allowResidentialPackage, allowEmploymentPackage, rules, filters).Refused?
        <==> NextDisabled(Text("1"), rules, filters)
  {
    PageOneTexts();
  }

  /**
   * Written as "01", page 1 disables Next while a project-description rule
   * has errors, yet a page change from it is not validated and goes
   * forward, because the validations are looked up by the raw text.
   */
  lemma UnpaddedPageOnlyIsValidated(
    projectIdParam: Param, rules: seq<Rule>, filters: RuleFilters)
    requires exists x :: x in rules && filters.projectDescription(x) && HasErrors(x)
    ensures NextDisabled(Text("01"), rules, filters)
    ensures OnPageChange(Text("1"), projectIdParam, 2, true, true, rules, filters).Refused?
    ensures OnPageChange(Text("01"), projectIdParam, 2, true, true, rules, filters)
      == Push(Calculation(Some(2), IdSegment(projectIdParam)))
  {
    PageOneTexts();
  }

  function IsResultRule(resultRuleCodes: seq<string>): Rule -> bool
  {
    (r: Rule) => r.code in resultRuleCodes && r.display
  }

  /**
   * `resultRules`: the displayed rules whose code is one of the result
   * codes, in list order and with their multiplicity; the category is not
   * consulted.
   */
  function ResultRules(rules: seq<Rule>, resultRuleCodes: seq<string>): (results: seq<Rule>)
    ensures forall r :: r in results <==> r in rules && r.code in resultRuleCodes && r.display
    ensures forall r ::
      multiset(results)[r] == if r.code in resultRuleCodes && r.display then multiset(rules)[r] else 0
  {
    FilterMultiset(rules, IsResultRule(resultRuleCodes));
    Filter(rules, IsResultRule(resultRuleCodes))
  }

  /** The result list of two rule lists laid end to end is the two result lists laid end to end. */
  lemma ResultRulesKeepOrder(a: seq<Rule>, b: seq<Rule>, resultRuleCodes: seq<string>)
    ensures ResultRules(a + b, resultRuleCodes) == ResultRules(a, resultRuleCodes) + ResultRules(b, resultRuleCodes)
  {
    FilterConcat(a, b, IsResultRule(resultRuleCodes));
  }
}
